=== FILE: README.md ===
# Panchayat complaint portal — a Dafny model of its core

Panchayat is a Next.js application where citizens file civic complaints for their ward and
staff handle them. An administrator sees every complaint and manages the ward officers; an
officer sees the complaints of one ward and changes their status. This project models the
server-side logic of that application and proves properties of the model:

- the route guard (`middleware.ts`) that sends visitors without a session to `/login` and
  keeps administrators and officers on their own dashboards;
- the service-level rule (`getSLAStatus`): a complaint is in breach once it is three whole
  days old, and the dashboards count it only while it is neither RESOLVED nor CLOSED;
- the login endpoint, the officer listing and registration endpoints;
- the two server actions that write complaints: filing one and changing its status;
- the figures on the administrator's and the officer's dashboards;
- the image upload endpoint's checks and the stored file name.

Module by file:

| file | module | what it holds |
|---|---|---|
| wrappers.dfy | `Wrappers` | `Option`, standing for `null`/`undefined` |
| text.dfy | `Text` | `startsWith`, the `\s` class, JavaScript falsiness, `parseInt` |
| records.dfy | `Records` | roles, statuses, session claims, the `User` and `Complaint` rows, lookup by email |
| counting.dfy | `Counting` | `filter(...).length` and its algebra |
| ordering.dfy | `Ordering` | `orderBy: { createdAt: "desc" }` as an insertion sort |
| session.dfy | `Session` | reading the `session` cookie |
| middleware.dfy | `Middleware` | the route guard and its matcher |
| sla.dfy | `Sla` | `getSLAStatus` |
| login.dfy | `Login` | `POST /api/login` |
| officers.dfy | `Officers` | `GET` and `POST /api/officers`, and the user table as a class |
| complaints.dfy | `Complaints` | `submitComplaint`, `updateComplaintStatus`, and the complaint table as a class |
| filters.dfy | `Filters` | the per-complaint tests the dashboards count by |
| admin_dashboard.dfy | `AdminDashboard` | the administrator's dashboard figures |
| officer_dashboard.dfy | `OfficerDashboard` | the officer's dashboard list and figures |
| upload.dfy | `Upload` | `POST /api/upload` |

The two tables the handlers write — users and complaints — are classes (`Officers.UserTable`,
`Complaints.ComplaintStore`) whose methods are proved against the pure functions that specify
them. Everything the application obtains from outside — the clock, the database's generated
ids, bcrypt, the JWT codec, `uuidv4()`, the success of a disk write — is a parameter.

## Model

| member | source | states |
|---|---|---|
| Text.TrimStart | app/submit/actions.ts:11 | `parseInt` skips exactly the leading run of white space: the result is a suffix, starts with a non-space, and every dropped character is white space |
| Text.DigitPrefix | app/submit/actions.ts:11 | the digits `parseInt` reads are the longest prefix made of digits of the radix |
| Text.ParseDecimalString | app/api/officers/route.ts:54 | `parseInt(String(n))` is `n` for every integer, with or without a radix |
| Text.ParseDigits | app/api/officers/route.ts:54 | the result is NaN exactly when the text does not start with a digit of the radix |
| Text.ParseDigitsOfDigits | app/submit/actions.ts:11 | the decimal numeral of a natural number reads back as that number |
| Text.ParseUnsignedOfDigits | app/api/officers/route.ts:54 | a numeral never carries a hexadecimal prefix, so it reads the same with or without a radix |
| Text.ParseIntHexPrefix | app/api/officers/route.ts:54 | without a radix, as in officer registration, `"0x1F"` reads as 31 |
| Text.ParseIntHexPrefixRadixTen | app/submit/actions.ts:11 | with radix 10, as in `submitComplaint`, `"0x1F"` reads as 0 |
| Text.ParseUnsigned | app/api/officers/route.ts:54 | with radix 10, or when the text after the sign does not start with `0`, the digits are read in base 10 |
| Text.ParseSigned | app/submit/actions.ts:11 | a result needs a sign or a decimal digit first, and a negative result comes only from a leading `-` |
| Text.ParseInt | app/submit/actions.ts:11 | blank text is NaN, and a negative result comes only from a `-` right after the leading white space |
| Text.ParseIntSkipsSpace | app/submit/actions.ts:11 | a leading white-space character does not change what `parseInt` reads |
| Records.FindByEmail | app/api/login/route.ts:18-20 | the row found has the email asked for; nothing is found exactly when no row has it |
| Records.FindByEmailUnique | app/api/login/route.ts:18-20 | with unique emails the lookup returns the one row with that email |
| Records.IndexOf | app/dashboard/officer/actions.ts:8-9 | the position found holds the id asked for; none is found exactly when no row has that id |
| Counting.Filter | app/dashboard/admin/page.tsx:32-34 | the filtered sequence holds exactly the elements passing the test, no more than the input |
| Counting.CountAppend | app/dashboard/admin/page.tsx:31-34 | counting over a concatenation adds the counts |
| Counting.CountUpdate | app/dashboard/officer/actions.ts:8-15 | replacing one element takes the old element's contribution out of a count and puts the new one's in |
| Counting.CountDisjoint | app/dashboard/admin/page.tsx:32-34 | two tests no element passes together count at most the length |
| Counting.CountMonotone | app/dashboard/admin/page.tsx:58-63 | a weaker test counts at least as many |
| Counting.CountUnion | app/dashboard/admin/page.tsx:47-50 | the count of a union of disjoint tests is the sum of their counts |
| Counting.FilterMultiplicity | app/dashboard/admin/page.tsx:32-34 | filtering keeps every passing element as often as it occurs |
| Counting.CountPermutation | app/dashboard/admin/page.tsx:27-29 | counts do not depend on the order the query returns rows in |
| Ordering.InsertDesc | app/dashboard/admin/page.tsx:27-29 | inserting into a newest-first sequence keeps it newest first and adds exactly one element |
| Ordering.HeadDominates | app/dashboard/admin/page.tsx:27-29 | a newest-first sequence stays so when a smaller element is inserted behind its head |
| Ordering.SortDesc | app/dashboard/admin/page.tsx:27-29 | `orderBy: { createdAt: "desc" }` returns a newest-first permutation of the rows |
| Session.SessionOf | lib/auth.ts:47-51 | no cookie or an empty cookie gives no session; otherwise the session is what `decrypt` yields |
| Session.IsAdminSession | app/dashboard/admin/page.tsx:23 | the test both administrator-only handlers apply (also app/api/officers/route.ts:9): a session whose role is ADMIN; what it guards is stated by `Officers.NonAdminRejected`, `Officers.ListOfficers` and `AdminDashboard.AdminDashboardPage` |
| Session.UndecryptableIsAbsent | middleware.ts:15-16 | a cookie that does not decrypt counts as no cookie |
| Middleware.Decide | middleware.ts:8-46 | every redirect goes to `/login` or a role home; the guard sends to `/login` exactly when the path is protected and there is no session |
| Middleware.IsProtectedRoute | middleware.ts:5-12 | a path is protected exactly when it starts with `/dashboard` |
| Middleware.IsPublicRoute | middleware.ts:6-13 | no public route is a protected route; the guard computes the test but none of its decisions reads it (see `Middleware.PublicRoutesPassThrough`) |
| Middleware.Guard | middleware.ts:8-16 | a missing or empty cookie gets the guard's no-session decision; any other cookie gets the decision for what `decrypt` yields |
| Middleware.Matched | middleware.ts:49-51 | every path the matcher selects is `/login` or a protected route |
| Middleware.Route | middleware.ts:49-51 | paths outside the matcher are never redirected |
| Middleware.AdminHomeUnderDashboard | middleware.ts:5-12 | the admin home is a protected route |
| Middleware.OfficerHomeUnderDashboard | middleware.ts:5-12 | the officer home is a protected route |
| Middleware.LoginNotProtected | middleware.ts:5-6 | `/login` is not a protected route |
| Middleware.NoSessionDashboardGoesToLogin | middleware.ts:19-21 | any dashboard path without a session is redirected to `/login` |
| Middleware.UndecryptableCookieSameAsNone | middleware.ts:15-21 | a forged or expired cookie is treated like none |
| Middleware.LoginPageRedirects | middleware.ts:24-30 | an administrator on `/login` goes to the admin home, an officer to the officer home, a citizen session stays |
| Middleware.AdminPrefixGuarded | middleware.ts:33-37 | only an administrator's session passes through an admin-dashboard path |
| Middleware.OfficerPrefixGuarded | middleware.ts:33-43 | only an officer's session passes through an officer-dashboard path |
| Middleware.RedirectTargetAllowed | middleware.ts:19-43 | for no session, an administrator or an officer, the page redirected to lets the same session through |
| Middleware.CitizenRedirectCycle | middleware.ts:33-43 | a CITIZEN session is bounced between the two dashboards and never let through |
| Middleware.PublicRoutesPassThrough | middleware.ts:6-45 | public routes other than `/login` are never redirected, whatever the session |
| Middleware.DashboardLookalike | middleware.ts:12-51 | `/dashboardX` counts as protected in the guard but is outside the matcher, so it is never redirected |
| Sla.GetSlaStatus | lib/utils.ts:16-26 | the age is the floor of the elapsed time in days, and breach holds exactly when it is at least three |
| Sla.BreachedIffThreeDaysElapsed | lib/utils.ts:19-24 | breach holds exactly when three days' worth of milliseconds have elapsed |
| Sla.BoundaryThreeDays | lib/utils.ts:19-24 | exactly three days after creation the complaint is in breach |
| Sla.BoundaryJustUnderThreeDays | lib/utils.ts:19-24 | one millisecond earlier it is two days old and not in breach |
| Sla.AgeMonotone | lib/utils.ts:19-24 | age never decreases with time, so breach persists |
| Sla.FutureCreationNotBreached | lib/utils.ts:19-24 | a creation time in the future gives a negative age and no breach |
| Login.Claims | app/api/login/route.ts:40-46 | the session carries the user's id, name, email, role and ward |
| Login.HomeFor | app/api/login/route.ts:51 | the redirect is the admin home exactly for ADMIN |
| Login.HandleLogin | app/api/login/route.ts:6-61 | a success means both fields present, the email known and the password matching its hash, with that user's claims and home; every failure is one of the three fixed responses |
| Login.MissingFieldsRejectedFirst | app/api/login/route.ts:10-15 | a missing or empty field gives 400 whatever the user table holds |
| Login.FailuresIndistinguishable | app/api/login/route.ts:22-37 | an unknown email and a wrong password give the same 401 |
| Login.SuccessIff | app/api/login/route.ts:10-52 | with unique emails, login succeeds exactly when both fields are non-empty and some user has that email and a matching password |
| Login.UnparsableIsInternalError | app/api/login/route.ts:54-60 | a body that is not JSON gives 500 |
| Officers.Summaries | app/api/officers/route.ts:15-21 | one summary per user, in order, without the password |
| Officers.ListOfficers | app/api/officers/route.ts:7-26 | 401 exactly for non-administrators; otherwise the officers' summaries, newest first |
| Officers.ListedExactlyOfficers | app/api/officers/route.ts:13-23 | a summary is listed exactly when it is that of some OFFICER row |
| Officers.CreateOfficer | app/api/officers/route.ts:28-69 | a 201 comes exactly when an administrator sends all four fields with an unused email and a ward `parseInt` can read (`"0x1F"`, `" 7"` and `"5abc"` included); then exactly one OFFICER row with the hashed password and the parsed ward is appended; every failure leaves the table as it was |
| Officers.NonAdminRejected | app/api/officers/route.ts:29-32 | without an administrator's session the answer is 401 and nothing changes, whatever the body |
| Officers.UnparsableIsInternalError | app/api/officers/route.ts:35-67 | an administrator's request whose body is not JSON gets 500 "Internal server error" and the table stays as it was |
| Officers.MissingFieldBeforeDuplicate | app/api/officers/route.ts:37-44 | a missing field is reported even when the email is also taken |
| Officers.DuplicateEmailRejected | app/api/officers/route.ts:41-44 | an email already in the table is refused with 400 and nothing changes |
| Officers.DecimalWardStored | app/api/officers/route.ts:48-64 | a ward written in decimal is stored and returned as that number |
| Officers.CreatedOfficerListed | app/api/officers/route.ts:13-23 | a newly registered officer appears in the listing |
| Officers.CreatePreservesWellFormed | app/api/officers/route.ts:41-62 | registration keeps emails and ids unique and every officer with a ward |
| Officers.AppendFreshUser | app/api/officers/route.ts:41-62 | appending a user with an unused email and id keeps the table well formed |
| Officers.UserTable.Post | app/api/officers/route.ts:28-69 | the handler changes the table exactly as `CreateOfficer` says and keeps it well formed |
| Complaints.NormalizeImageUrl | app/submit/actions.ts:14-23 | an empty or missing image URL is stored as null, any other as given |
| Complaints.NewComplaint | app/submit/actions.ts:8-26 | the new row copies the form, is OPEN without notes, has the decimal ward; there is none exactly when the ward does not parse |
| Complaints.SuccessLocation | app/submit/actions.ts:31 | the redirect is the success page followed by the public complaint id |
| Complaints.Updated | app/dashboard/officer/actions.ts:8-15 | status and `updatedAt` are replaced, notes only when given, nothing else changes |
| Complaints.SetStatus | app/dashboard/officer/actions.ts:8-15 | the table keeps its length and is unchanged when no row has the id |
| Complaints.SetStatusEffect | app/dashboard/officer/actions.ts:8-15 | only the row with that internal id is updated; every other row is unchanged |
| Complaints.SetStatusKeepsKeys | app/dashboard/officer/actions.ts:8-15 | ids, public ids, wards and creation times never change |
| Complaints.ComplaintStore.SubmitComplaint | app/submit/actions.ts:8-32 | a valid form appends exactly its row and redirects to the success page; an unparsable ward leaves the table unchanged |
| Complaints.ComplaintStore.UpdateComplaintStatus | app/dashboard/officer/actions.ts:7-19 | the table becomes `SetStatus` of the old one; the update is found exactly when some row has the id |
| Filters.BreachedOpenMeaning | app/dashboard/admin/page.tsx:34 | a complaint is counted as breached exactly when three days have elapsed and it is OPEN or IN_PROGRESS |
| Filters.BreachedOpen | app/dashboard/admin/page.tsx:34 | a RESOLVED or CLOSED complaint, or one filed less than three days ago, is never counted as breached |
| Filters.ResolvingClearsBreach | app/dashboard/officer/actions.ts:8-15 | marking a complaint RESOLVED removes it from the breach count and changes no other complaint's contribution |
| AdminDashboard.Distinct | app/dashboard/admin/page.tsx:42 | the keys of the tally: each element once, nothing else |
| AdminDashboard.KeyIndex | app/dashboard/admin/page.tsx:38 | the position of a key in the tally, or none when absent |
| AdminDashboard.SumCountsUpdate | app/dashboard/admin/page.tsx:38 | bumping one entry changes the sum of the counts by the same amount |
| AdminDashboard.SumCountsAppend | app/dashboard/admin/page.tsx:38 | appending an entry adds its count to the sum |
| AdminDashboard.SumCountsRelabel | app/dashboard/admin/page.tsx:52-55 | renaming the keys of the tally, as the status chart does, keeps the sum of its counts |
| AdminDashboard.TallyBump | app/dashboard/admin/page.tsx:37-40 | meeting a known key keeps the tally correct |
| AdminDashboard.TallyAdd | app/dashboard/admin/page.tsx:37-40 | meeting a new key keeps the tally correct |
| AdminDashboard.StepBumpsKey | app/dashboard/admin/page.tsx:37-40 | one call of the callback gives the key an entry, leaves other keys' entries alone, adds no entry other than `(key, 1)`, and raises the sum of the counts by one |
| AdminDashboard.Step | app/dashboard/admin/page.tsx:38 | the reduce's callback `acc[key] = (acc[key] || 0) + 1` on an association list; what it does is stated by `AdminDashboard.StepBumpsKey` and `AdminDashboard.TallyStep` |
| AdminDashboard.TallyStep | app/dashboard/admin/page.tsx:37-40 | one call of the reduce's callback keeps the tally correct for the keys seen so far |
| AdminDashboard.Tallied | app/dashboard/admin/page.tsx:37-40 | the reduce over the keys, left to right; what it yields is stated by `AdminDashboard.TalliedCounts` |
| AdminDashboard.TalliedCounts | app/dashboard/admin/page.tsx:37-40 | the reduce over all keys yields one entry per distinct key with its number of occurrences and counts summing to the number of keys |
| AdminDashboard.Tally | app/dashboard/admin/page.tsx:37-40 | the loop computes the reduce, so one entry per distinct key, holding its number of occurrences; the counts sum to the number of keys |
| AdminDashboard.CategoryOccurrences | app/dashboard/admin/page.tsx:37-45 | a category's occurrences are the complaints filed under it |
| AdminDashboard.StatusOccurrences | app/dashboard/admin/page.tsx:47-55 | a status's occurrences are the complaints in it |
| AdminDashboard.ReplaceFirstUnderscore | app/dashboard/admin/page.tsx:53 | the length is kept and a string without an underscore is unchanged |
| AdminDashboard.ReplaceFirstUnderscoreAt | app/dashboard/admin/page.tsx:53 | the first underscore, wherever it is, becomes a space and every other character is kept |
| AdminDashboard.InProgressLabel | app/dashboard/admin/page.tsx:53 | IN_PROGRESS is shown with its underscore turned into a space |
| AdminDashboard.OtherLabels | app/dashboard/admin/page.tsx:53 | the other statuses are shown by their names |
| AdminDashboard.StatusData | app/dashboard/admin/page.tsx:52-55 | each chart entry is the display name and the count of its status |
| AdminDashboard.WardStatOf | app/dashboard/admin/page.tsx:57-65 | a ward's total is the number of its complaints, and its resolved and breached figures are the settled and breached counts among those complaints; resolved plus breached is at most the total |
| AdminDashboard.FilterBoth | app/dashboard/admin/page.tsx:58-63 | filtering the ward's complaints, then by a second test, is filtering by both |
| AdminDashboard.NewestFirst | app/dashboard/admin/page.tsx:27-29 | the query returns a newest-first permutation of the table |
| AdminDashboard.Recent | app/dashboard/admin/page.tsx:173 | the first five complaints, or all when fewer |
| AdminDashboard.RecentAreNewest | app/dashboard/admin/page.tsx:173 | the recent list is newest first, drawn from the table, and no complaint left out is newer |
| AdminDashboard.AdminDashboardPage | app/dashboard/admin/page.tsx:21-65 | non-administrators go to `/login`; otherwise totals, chart entries, ward figures and recent list are the counts over the stored complaints, and the category and the status chart entries each sum to the number of complaints |
| AdminDashboard.TotalsMatch | app/dashboard/admin/page.tsx:31-34 | the totals over the ordered rows equal those over the table |
| AdminDashboard.WardStatPermutation | app/dashboard/admin/page.tsx:57-65 | ward figures do not depend on row order |
| AdminDashboard.CategoryCountsMatch | app/dashboard/admin/page.tsx:37-45 | each category entry counts the stored complaints of that category |
| AdminDashboard.StatusCountsMatch | app/dashboard/admin/page.tsx:47-55 | each status entry counts the stored complaints of that status |
| AdminDashboard.ResolvedAndOpenWithinTotal | app/dashboard/admin/page.tsx:31-33 | resolved plus open is at most the total |
| AdminDashboard.BreachedAndResolvedWithinTotal | app/dashboard/admin/page.tsx:31-34 | breached plus resolved is at most the total |
| AdminDashboard.StatusCountsSumToTotal | app/dashboard/admin/page.tsx:47-50 | the four status counts add up to the total |
| AdminDashboard.AllCounted | app/dashboard/admin/page.tsx:31 | a test every complaint passes counts them all |
| AdminDashboard.WardTotalsWithinTotal | app/dashboard/admin/page.tsx:57-61 | the totals of wards 1 and 2 add up to at most the overall total |
| OfficerDashboard.ParseStatus | app/dashboard/officer/page.tsx:21-27 | a status parameter names the status with that name, and none when no status has it |
| OfficerDashboard.Matches | app/dashboard/officer/page.tsx:24-28 | only the officer's ward passes, and with a status filter only that status; without a filter exactly the ward's complaints pass |
| OfficerDashboard.OfficerDashboardPage | app/dashboard/officer/page.tsx:15-36 | no session, a non-officer or an officer without ward goes to `/login`; otherwise the ward's complaints matching the filter, newest first, with their total, open and breached counts |
| OfficerDashboard.ListedMatchFilter | app/dashboard/officer/page.tsx:22-29 | every listed complaint is stored, in the officer's ward, and has the filtered status |
| OfficerDashboard.FilterMembers | app/dashboard/officer/page.tsx:24-28 | a complaint is in the query's result exactly when stored and matching |
| OfficerDashboard.UnfilteredListsWholeWard | app/dashboard/officer/page.tsx:21-29 | without a filter every complaint of the ward is listed |
| OfficerDashboard.EmptyFilterIsNoFilter | app/dashboard/officer/page.tsx:27 | an empty status parameter does not filter |
| OfficerDashboard.StatsBounds | app/dashboard/officer/page.tsx:32-36 | open and breached are each at most the total, and breached plus settled too |
| OfficerDashboard.SettledFilterHasNoBreaches | app/dashboard/officer/page.tsx:27-35 | filtering by RESOLVED or CLOSED shows zero breached |
| OfficerDashboard.NoneCounted | app/dashboard/officer/page.tsx:35 | a test no listed complaint can pass counts zero |
| OfficerDashboard.NoneCountedSeq | app/dashboard/officer/page.tsx:35 | the same over a sequence whose every element passes the excluding test |
| Upload.Sanitize | app/api/upload/route.ts:23 | the sanitised name contains no white space and is no longer than the original |
| Upload.UniqueFilename | app/api/upload/route.ts:23 | the stored name is the UUID, a dash, and the sanitised name |
| Upload.IsImageFile | app/api/upload/route.ts:11-15 | the `file` entry is a file part whose type starts with `image/`; `Upload.HandleUpload` attempts a write exactly for such requests |
| Upload.HandleUpload | app/api/upload/route.ts:6-45 | no form gives 500; no entry or an empty text entry gives 400, a non-empty text entry 500, a non-image file 400, all without writing; a write is attempted exactly for an image file, under the stored name; a failed save gives 500 "File upload failed."; success is 201 with `/uploads/` plus that name exactly when saving also succeeds |
| Upload.SanitizeNoSpace | app/api/upload/route.ts:23 | a name without white space, `/` and `..` included, is kept as it is |
| Upload.TraversalNameKept | app/api/upload/route.ts:23-25 | a client name such as `x/../../../app/page.tsx` reaches the stored name unchanged |
| Upload.SanitizeIdempotent | app/api/upload/route.ts:23 | sanitising twice is sanitising once |
| Upload.VisibleOfSpaces | app/api/upload/route.ts:23 | dropping leading white space keeps the visible characters |
| Upload.SanitizeKeepsVisible | app/api/upload/route.ts:23 | every character other than white space and underscore survives unchanged and in order |
| Upload.TrimStartRun | app/api/upload/route.ts:23 | a run of white space is consumed up to the first other character |
| Upload.SanitizeRun | app/api/upload/route.ts:23 | a run of white space, however long, becomes a single underscore |
| Upload.TrimStartAppend | app/api/upload/route.ts:23 | a run of leading white space that ends inside the first part of a name ends there in the whole name too |
| Upload.SanitizeSplit | app/api/upload/route.ts:23 | a name cut just after a character other than white space sanitises piece by piece |
| Upload.SanitizeRunAt | app/api/upload/route.ts:23 | each maximal run of white space, wherever it stands, becomes one underscore in its place, with what comes before and after sanitised separately |

## Left out

- Signing, verifying and expiring the session token (lib/auth.ts): `decrypt` is a parameter; the hard-coded fallback secret is not modelled.
- bcrypt hashing and comparison: `hashPassword` and `comparePassword` are parameters, so nothing is claimed about salting.
- The database itself: rows are sequences, ids, public complaint ids and creation times are parameters, and their uniqueness is a precondition where the database guarantees it.
- Database failures, and the 32-bit range of the `Int` column: wards are unbounded integers. Three database failures are modelled, each as an assumption about Prisma, since prisma/schema.prisma is not part of this model: a ward that `parseInt` reads as `NaN` is rejected on insert; an update whose id matches no row fails and changes nothing (`Complaints.ComplaintStore.UpdateComplaintStatus` reports it as `found == false`); and an officer-dashboard status parameter that names no status is rejected (`OfficerDashboard.BadStatusFilter`).
- Officers.CreateOfficer: assumes the database rejects a `NaN` ward, giving a 500 and no new row. The user's `ward` column is nullable (lib/auth.ts:12, prisma/seed.ts:15-21); were `NaN` stored as null instead, an OFFICER without a ward would be created, and the officer dashboard would send that officer back to `/login` (app/dashboard/officer/page.tsx:17-19).
- Complaints.NewComplaint: assumes the database rejects a `NaN` ward, so `submitComplaint` fails and stores nothing.
- AdminDashboard.AdminDashboardPage: the category tally is a plain object, so a category named after an `Object.prototype` member miscounts: `"__proto__"` is never counted, and `"constructor"`, `"toString"`, `"valueOf"` or `"hasOwnProperty"` start from a function and end up as strings. The model counts every category the same way, so its chart entries and their sum (`SumCounts(categoryData) == |complaints|`) hold only when no stored category is such a name.
- Upload.HandleUpload: where the bytes land is not modelled. `path.join` resolves `..`, so a stored name such as `x/../../../app/page.tsx` (kept intact, see `Upload.TraversalNameKept`) writes outside `public/uploads`; `written` is the name relative to that directory.
- `getSLAStatus` reads the clock once per complaint (lib/utils.ts:18); the model evaluates a whole page against one `now`, so a complaint crossing the three-day mark while a page is computed is not modelled.
- Number precision: `getSLAStatus` and `parseInt` are computed on unbounded integers, not JavaScript doubles, so very large times or long numerals behave differently.
- `Object.keys` order for integer-like keys: the model lists the chart keys in the order the reduce first meets them (`AdminDashboard.Distinct`), not integer keys first.
- The order of rows with equal `createdAt`: only the newest-first order and the multiset of rows are stated.
- `resRate` (a floating-point percentage) on the administrator's dashboard, and `formatDate`, `cn` and all rendering.
- `AutoRefresh`, `revalidatePath` and `redirect`'s exception mechanism: a redirect is a returned value.
- The `fs` writes, `mkdir` and `uuidv4()` of the upload route: the UUID and whether saving succeeds are parameters.
- Concurrency: two requests racing on the same email or complaint are not modelled.
- JSON fields that are not strings, and form entries that are not files or strings (the upload's `file` entry may be a file or a string).
- The logout endpoint and the seed script.
- Complaints.ComplaintStore.SubmitComplaint: a missing form field (`null` cast to a string) is not modelled; the form is assumed to carry every text field.
- OfficerDashboard.OfficerDashboardPage: a status parameter naming no status is a distinct failure outcome; the error page the database's rejection produces is not modelled.
- Sla.GetSlaStatus: the source's breach test ignores the complaint's status; the status-aware test both dashboards apply is `Filters.BreachedOpen`, modelled as the code writes it.

=== FILE: admin_dashboard.dfy ===
/**
 * The administrator's dashboard: a guard, then figures over every complaint, newest first:
 * totals, per-category and per-status counts for the charts, per-ward figures for wards 1
 * and 2, and the five most recent complaints.
 */
module AdminDashboard {
  import opened Wrappers
  import opened Records
  import opened Sla
  import opened Ordering
  import opened Counting
  import opened Filters
  import opened Session
  import Middleware

  // ---------------------------------------------------------------------------------------
  // `reduce` into a dictionary: `acc[key] = (acc[key] || 0) + 1`

  /** The keys of an association list, in order (JavaScript's `Object.keys`). */
  function KeysOf<K>(acc: seq<(K, nat)>): (ks: seq<K>)
    ensures |ks| == |acc| && forall i :: 0 <= i < |acc| ==> ks[i] == acc[i].0
  {
    seq(|acc|, i requires 0 <= i < |acc| => acc[i].0)
  }

  function SumCounts<K>(acc: seq<(K, nat)>): nat {
    if acc == [] then 0 else SumCounts(acc[..|acc| - 1]) + acc[|acc| - 1].1
  }

  /** The distinct elements of `s` in order of first occurrence. */
  function Distinct<K(==)>(s: seq<K>): (d: seq<K>)
    ensures forall i :: 0 <= i < |d| ==> d[i] in s
    ensures forall i :: 0 <= i < |s| ==> s[i] in d
    ensures forall i, j :: 0 <= i < j < |d| ==> d[i] != d[j]
  {
    if s == [] then []
    else
      var init := s[..|s| - 1];
      var d := Distinct(init);
      assert forall i :: 0 <= i < |s| - 1 ==> s[i] == init[i];
      if s[|s| - 1] in d then d else d + [s[|s| - 1]]
  }

  /** The first position holding `key`, if any. */
  function KeyIndex<K(==)>(acc: seq<(K, nat)>, key: K): (r: Option<nat>)
    ensures r.Some? ==> r.value < |acc| && acc[r.value].0 == key
    ensures r.None? ==> forall i :: 0 <= i < |acc| ==> acc[i].0 != key
  {
    if acc == [] then None
    else if acc[0].0 == key then Some(0)
    else match KeyIndex(acc[1..], key)
      case None => None
      case Some(i) => Some(i + 1)
  }

  lemma {:induction false} SumCountsUpdate<K>(acc: seq<(K, nat)>, j: nat, entry: (K, nat))
    requires j < |acc|
    ensures SumCounts(acc[j := entry]) == SumCounts(acc) - acc[j].1 + entry.1
  {
    var last := |acc| - 1;
    if j == last {
      assert acc[j := entry][..last] == acc[..last];
    } else {
      SumCountsUpdate(acc[..last], j, entry);
      assert acc[j := entry][..last] == acc[..last][j := entry];
    }
  }

  lemma SumCountsAppend<K>(acc: seq<(K, nat)>, entry: (K, nat))
    ensures SumCounts(acc + [entry]) == SumCounts(acc) + entry.1
  {
    assert (acc + [entry])[..|acc|] == acc;
  }

  /** Relabelling the keys of an association list keeps the sum of its counts. */
  lemma {:induction false} SumCountsRelabel<K, L>(acc: seq<(K, nat)>, r: seq<(L, nat)>)
    requires |r| == |acc| && forall i :: 0 <= i < |acc| ==> r[i].1 == acc[i].1
    ensures SumCounts(r) == SumCounts(acc)
  {
    if acc != [] {
      SumCountsRelabel(acc[..|acc| - 1], r[..|r| - 1]);
    }
  }

  /** `acc` is the dictionary the reduce builds from `s`. */
  ghost predicate TallyOf<K>(s: seq<K>, acc: seq<(K, nat)>) {
    && KeysOf(acc) == Distinct(s)
    && (forall i :: 0 <= i < |acc| ==> acc[i].1 == multiset(s)[acc[i].0])
    && SumCounts(acc) == |s|
  }

  /** Meeting a key already in the dictionary bumps its entry. */
  lemma TallyBump<K>(s: seq<K>, acc: seq<(K, nat)>, j: nat, key: K)
    requires TallyOf(s, acc) && j < |acc| && acc[j].0 == key
    ensures TallyOf(s + [key], acc[j := (key, acc[j].1 + 1)])
  {
    var acc' := acc[j := (key, acc[j].1 + 1)];
    assert (s + [key])[..|s|] == s;
    assert key in Distinct(s) by {
      assert KeysOf(acc)[j] == key;
    }
    assert KeysOf(acc') == KeysOf(acc);
    assert multiset(s + [key]) == multiset(s) + multiset{key};
    forall i | 0 <= i < |acc'| ensures acc'[i].1 == multiset(s + [key])[acc'[i].0] {
      if i != j {
        assert KeysOf(acc)[i] != KeysOf(acc)[j];
      }
    }
    SumCountsUpdate(acc, j, (key, acc[j].1 + 1));
  }

  /** Meeting a new key appends an entry with count one. */
  lemma TallyAdd<K>(s: seq<K>, acc: seq<(K, nat)>, key: K)
    requires TallyOf(s, acc) && forall i :: 0 <= i < |acc| ==> acc[i].0 != key
    ensures TallyOf(s + [key], acc + [(key, 1)])
  {
    var acc' := acc + [(key, 1)];
    assert (s + [key])[..|s|] == s;
    assert key !in Distinct(s) by {
      forall i | 0 <= i < |acc| ensures KeysOf(acc)[i] != key { }
    }
    assert key !in s;
    assert KeysOf(acc') == KeysOf(acc) + [key];
    assert multiset(s + [key]) == multiset(s) + multiset{key};
    forall i | 0 <= i < |acc'| ensures acc'[i].1 == multiset(s + [key])[acc'[i].0] {
      if i < |acc| {
        assert acc'[i] == acc[i];
      }
    }
    SumCountsAppend(acc, (key, 1));
  }

  /** The reduce's callback, `acc[key] = (acc[key] || 0) + 1`: bump the key's entry, or add one. */
  function Step<K(==)>(acc: seq<(K, nat)>, key: K): (r: seq<(K, nat)>)
  {
    match KeyIndex(acc, key)
    case Some(j) =>
      acc[j := (key, acc[j].1 + 1)]
    case None =>
      acc + [(key, 1)]
  }

  /**
   * What one call of the callback does to the dictionary: the key ends up with an entry,
   * every other key's entry is untouched, at most one entry is added, and the counts grow
   * by exactly one.
   */
  lemma StepBumpsKey<K>(acc: seq<(K, nat)>, key: K)
    ensures KeyIndex(Step(acc, key), key).Some?
    ensures |Step(acc, key)| == |acc| || Step(acc, key) == acc + [(key, 1)]
    ensures forall i :: 0 <= i < |acc| && acc[i].0 != key ==> Step(acc, key)[i] == acc[i]
    ensures SumCounts(Step(acc, key)) == SumCounts(acc) + 1
  {
    match KeyIndex(acc, key)
    case Some(j) =>
      SumCountsUpdate(acc, j, (key, acc[j].1 + 1));
      assert Step(acc, key)[j].0 == key;
    case None =>
      SumCountsAppend(acc, (key, 1));
      assert Step(acc, key)[|acc|].0 == key;
  }

  /** One step of the reduce keeps the dictionary correct for the keys seen so far. */
  lemma TallyStep<K>(s: seq<K>, acc: seq<(K, nat)>, key: K)
    requires TallyOf(s, acc)
    ensures TallyOf(s + [key], Step(acc, key))
  {
    match KeyIndex(acc, key)
    case Some(j) => TallyBump(s, acc, j, key);
    case None => TallyAdd(s, acc, key);
  }

  lemma InitAndLast<K>(keys: seq<K>)
    requires keys != []
    ensures keys[..|keys| - 1] + [keys[|keys| - 1]] == keys
  {
  }

  /** The same step, phrased for the last key of a non-empty sequence. */
  lemma TallyStepLast<K>(keys: seq<K>, acc: seq<(K, nat)>)
    requires keys != [] && TallyOf(keys[..|keys| - 1], acc)
    ensures TallyOf(keys, Step(acc, keys[|keys| - 1]))
  {
    InitAndLast(keys);
    TallyStep(keys[..|keys| - 1], acc, keys[|keys| - 1]);
  }

  /** The dictionary the reduce has built after visiting `keys`, left to right. */
  function Tallied<K(==)>(keys: seq<K>): (acc: seq<(K, nat)>)
  {
    if keys == [] then [] else Step(Tallied(keys[..|keys| - 1]), keys[|keys| - 1])
  }

  /** The reduce counts: every visited key has one entry, holding its number of occurrences. */
  lemma {:induction false} TalliedCounts<K>(keys: seq<K>)
    ensures TallyOf(keys, Tallied(keys))
  {
    if keys != [] {
      TalliedCounts(keys[..|keys| - 1]);
      TallyStepLast(keys, Tallied(keys[..|keys| - 1]));
    }
  }

  /**
   * `keys.reduce((acc, key) => { acc[key] = (acc[key] || 0) + 1; return acc; }, {})`:
   * one entry per distinct key, in order of first occurrence, holding how often the key
   * occurs; the counts add up to the number of keys.
   */
  method Tally<K(==)>(keys: seq<K>) returns (acc: seq<(K, nat)>)
    ensures acc == Tallied(keys)
    ensures KeysOf(acc) == Distinct(keys)
    ensures forall i :: 0 <= i < |acc| ==> acc[i].1 == multiset(keys)[acc[i].0]
    ensures SumCounts(acc) == |keys|
  {
    acc := [];
    for n := 0 to |keys|
      invariant acc == Tallied(keys[..n])
    {
      assert keys[..n + 1][..n] == keys[..n];
      acc := Step(acc, keys[n]);
    }
    assert keys[..|keys|] == keys;
    TalliedCounts(keys);
  }

  /** How often a category occurs among the complaints is the number of complaints filed under it. */
  lemma {:induction false} CategoryOccurrences(cs: seq<Complaint>, category: string)
    ensures multiset(Categories(cs))[category] == Count(cs, HasCategory(category))
  {
    if cs != [] {
      CategoryOccurrences(cs[1..], category);
      assert Categories(cs) == [cs[0].category] + Categories(cs[1..]);
    }
  }

  /** How often a status occurs among the complaints is the number of complaints in that status. */
  lemma {:induction false} StatusOccurrences(cs: seq<Complaint>, status: Status)
    ensures multiset(Statuses(cs))[status] == Count(cs, HasStatus(status))
  {
    if cs != [] {
      StatusOccurrences(cs[1..], status);
      assert Statuses(cs) == [cs[0].status] + Statuses(cs[1..]);
    }
  }

  function Categories(cs: seq<Complaint>): (r: seq<string>)
    ensures |r| == |cs| && forall i :: 0 <= i < |cs| ==> r[i] == cs[i].category
  {
    seq(|cs|, i requires 0 <= i < |cs| => cs[i].category)
  }

  function Statuses(cs: seq<Complaint>): (r: seq<Status>)
    ensures |r| == |cs| && forall i :: 0 <= i < |cs| ==> r[i] == cs[i].status
  {
    seq(|cs|, i requires 0 <= i < |cs| => cs[i].status)
  }

  // ---------------------------------------------------------------------------------------
  // Chart labels: `name.replace('_', ' ')` replaces the first underscore only

  function ReplaceFirstUnderscore(s: string): (r: string)
    ensures |r| == |s|
    ensures '_' !in s ==> r == s
  {
    if s == [] then []
    else if s[0] == '_' then " " + s[1..]
    else [s[0]] + ReplaceFirstUnderscore(s[1..])
  }

  /** The underscore replaced is the first one; everything else is kept. */
  lemma {:induction false} ReplaceFirstUnderscoreAt(s: string, i: nat)
    requires i < |s| && s[i] == '_' && '_' !in s[..i]
    ensures ReplaceFirstUnderscore(s) == s[i := ' ']
  {
    if i > 0 {
      assert s[0] == s[..i][0];
      assert s[1..][..i - 1] == s[1..i];
      assert '_' !in s[1..][..i - 1];
      ReplaceFirstUnderscoreAt(s[1..], i - 1);
      assert s[i := ' '] == [s[0]] + s[1..][i - 1 := ' '];
    }
  }

  /** The chart shows IN_PROGRESS with its underscore, the third character, turned into a space. */
  lemma InProgressLabel()
    ensures ReplaceFirstUnderscore(InProgress.Name()) == InProgress.Name()[2 := ' ']
  {
    var name := InProgress.Name();
    assert name[0] == 'I' && name[1] == 'N' && name[2] == '_';
    assert '_' !in name[..2];
    ReplaceFirstUnderscoreAt(name, 2);
  }

  /** The other statuses have no underscore, so the chart shows their names unchanged. */
  lemma OtherLabels(s: Status)
    requires s != InProgress
    ensures ReplaceFirstUnderscore(s.Name()) == s.Name()
  {
    assert '_' !in s.Name() by {
      forall i | 0 <= i < |s.Name()| ensures s.Name()[i] != '_' { }
    }
  }

  /** The status chart's entries: display name and count. */
  function StatusData(acc: seq<(Status, nat)>): (r: seq<(string, nat)>)
    ensures |r| == |acc|
    ensures forall i :: 0 <= i < |acc| ==> r[i] == (ReplaceFirstUnderscore(acc[i].0.Name()), acc[i].1)
  {
    seq(|acc|, i requires 0 <= i < |acc| => (ReplaceFirstUnderscore(acc[i].0.Name()), acc[i].1))
  }

  // ---------------------------------------------------------------------------------------
  // The page

  datatype WardStat = WardStat(ward: int, total: nat, resolved: nat, breached: nat)

  /** The wards the table shows: `[1, 2]`, whatever wards the complaints name. */
  const StatWards: seq<int> := [1, 2]

  function WardStatOf(cs: seq<Complaint>, ward: int, now: int): (w: WardStat)
    ensures w.ward == ward && w.total == Count(cs, InWard(ward))
    ensures w.resolved == Count(Filter(cs, InWard(ward)), IsSettledComplaint)
    ensures w.breached == Count(Filter(cs, InWard(ward)), BreachedOpen(now))
    ensures w.resolved <= w.total && w.breached <= w.total && w.resolved + w.breached <= w.total
  {
    var total := Count(cs, InWard(ward));
    var resolved := Count(cs, Both(InWard(ward), IsSettledComplaint));
    var breached := Count(cs, Both(InWard(ward), BreachedOpen(now)));
    var inWard := Filter(cs, InWard(ward));
    FilterBoth(cs, InWard(ward), IsSettledComplaint);
    FilterBoth(cs, InWard(ward), BreachedOpen(now));
    assert resolved + breached <= total by {
      CountDisjoint(inWard, IsSettledComplaint, BreachedOpen(now));
    }
    WardStat(ward, total, resolved, breached)
  }

  /** Filtering by two tests at once is filtering by one, then by the other. */
  lemma {:induction false} FilterBoth(cs: seq<Complaint>, p: Complaint -> bool, q: Complaint -> bool)
    ensures Filter(cs, Both(p, q)) == Filter(Filter(cs, p), q)
  {
    if cs != [] {
      FilterBoth(cs[1..], p, q);
      if p(cs[0]) {
        assert Filter(cs, p) == [cs[0]] + Filter(cs[1..], p);
        assert Filter(cs, p)[0] == cs[0] && Filter(cs, p)[1..] == Filter(cs[1..], p);
      } else {
        assert Filter(cs, p) == Filter(cs[1..], p);
      }
    }
  }

  datatype AdminView = AdminView(
    total: nat, resolved: nat, open: nat, breached: nat,
    categoryData: seq<(string, nat)>, statusData: seq<(string, nat)>,
    wardStats: seq<WardStat>, recent: seq<Complaint>)

  datatype AdminPage = AdminRedirect(location: string) | AdminPage(view: AdminView)

  /** The complaints as `findMany({ orderBy: { createdAt: "desc" } })` returns them. */
  function NewestFirst(store: seq<Complaint>): (cs: seq<Complaint>)
    ensures SortedDesc(cs, CreatedAt) && multiset(cs) == multiset(store) && |cs| == |store|
  {
    SortDesc(store, CreatedAt)
  }

  /** `complaints.slice(0, 5)`. */
  function Recent(cs: seq<Complaint>): (r: seq<Complaint>)
    ensures |r| == if |cs| < 5 then |cs| else 5
    ensures r == cs[..|r|]
  {
    if |cs| < 5 then cs else cs[..5]
  }

  /**
   * The recent list holds the newest complaints: none left out is newer than one listed,
   * and it is itself newest first.
   */
  lemma RecentAreNewest(store: seq<Complaint>)
    ensures var cs := NewestFirst(store); var r := Recent(cs);
      && SortedDesc(r, CreatedAt)
      && (forall i :: 0 <= i < |r| ==> r[i] in multiset(store))
      && (forall i, j :: 0 <= i < |r| <= j < |cs| ==> r[i].createdAt >= cs[j].createdAt)
  {
    var cs := NewestFirst(store);
    var r := Recent(cs);
    forall i, j | 0 <= i < j < |r| ensures CreatedAt(r[i]) >= CreatedAt(r[j]) {
      assert r[i] == cs[i] && r[j] == cs[j];
    }
    forall i, j | 0 <= i < |r| <= j < |cs| ensures r[i].createdAt >= cs[j].createdAt {
      assert r[i] == cs[i];
      assert CreatedAt(cs[i]) >= CreatedAt(cs[j]);
    }
    forall i | 0 <= i < |r| ensures r[i] in multiset(store) {
      assert r[i] == cs[i] && cs[i] in multiset(cs);
    }
  }

  /**
   * `AdminDashboard()`: the guard, then the figures. Totals are stated over the stored
   * complaints; the chart entries follow the newest-first order of the query.
   */
  method AdminDashboardPage(session: Option<SessionPayload>, store: seq<Complaint>, now: int) returns (page: AdminPage)
    ensures !IsAdminSession(session) <==> page == AdminRedirect(Middleware.LoginPath)
    ensures page.AdminPage? ==>
      var v := page.view;
      && v.total == |store|
      && v.resolved == Count(store, IsSettledComplaint)
      && v.open == Count(store, IsOpenComplaint)
      && v.breached == Count(store, BreachedOpen(now))
      && KeysOf(v.categoryData) == Distinct(Categories(NewestFirst(store)))
      && (forall i :: 0 <= i < |v.categoryData| ==>
            v.categoryData[i].1 == Count(store, HasCategory(v.categoryData[i].0)))
      && SumCounts(v.categoryData) == |store|
      && SumCounts(v.statusData) == |store|
      && |v.statusData| == |Distinct(Statuses(NewestFirst(store)))|
      && (forall i :: 0 <= i < |v.statusData| ==>
            var status := Distinct(Statuses(NewestFirst(store)))[i];
            v.statusData[i] == (ReplaceFirstUnderscore(status.Name()), Count(store, HasStatus(status))))
      && |v.wardStats| == 2
      && v.wardStats[0] == WardStatOf(store, 1, now) && v.wardStats[1] == WardStatOf(store, 2, now)
      && v.recent == Recent(NewestFirst(store))
  {
    if !IsAdminSession(session) {
      return AdminRedirect(Middleware.LoginPath);
    }
    var complaints := NewestFirst(store);
    var categoryCounts := Tally(Categories(complaints));
    CategoryCountsMatch(store, categoryCounts);
    var statusCounts := Tally(Statuses(complaints));
    StatusCountsMatch(store, statusCounts);
    SumCountsRelabel(statusCounts, StatusData(statusCounts));
    TotalsMatch(store, now);
    page := AdminPage(AdminView(
      |complaints|,
      Count(complaints, IsSettledComplaint),
      Count(complaints, IsOpenComplaint),
      Count(complaints, BreachedOpen(now)),
      categoryCounts,
      StatusData(statusCounts),
      [WardStatOf(complaints, 1, now), WardStatOf(complaints, 2, now)],
      Recent(complaints)));
  }

  /** The headline figures do not depend on the order the query returns the complaints in. */
  lemma TotalsMatch(store: seq<Complaint>, now: int)
    ensures var cs := NewestFirst(store);
      && Count(cs, IsSettledComplaint) == Count(store, IsSettledComplaint)
      && Count(cs, IsOpenComplaint) == Count(store, IsOpenComplaint)
      && Count(cs, BreachedOpen(now)) == Count(store, BreachedOpen(now))
      && WardStatOf(cs, 1, now) == WardStatOf(store, 1, now)
      && WardStatOf(cs, 2, now) == WardStatOf(store, 2, now)
  {
    var cs := NewestFirst(store);
    CountPermutation(cs, store, IsSettledComplaint);
    CountPermutation(cs, store, IsOpenComplaint);
    CountPermutation(cs, store, BreachedOpen(now));
    WardStatPermutation(cs, store, 1, now);
    WardStatPermutation(cs, store, 2, now);
  }

  lemma WardStatPermutation(a: seq<Complaint>, b: seq<Complaint>, ward: int, now: int)
    requires multiset(a) == multiset(b)
    ensures WardStatOf(a, ward, now) == WardStatOf(b, ward, now)
  {
    CountPermutation(a, b, InWard(ward));
    CountPermutation(a, b, Both(InWard(ward), IsSettledComplaint));
    CountPermutation(a, b, Both(InWard(ward), BreachedOpen(now)));
  }

  /** Each category's entry counts the stored complaints filed under it. */
  lemma CategoryCountsMatch(store: seq<Complaint>, acc: seq<(string, nat)>)
    requires forall i :: 0 <= i < |acc| ==> acc[i].1 == multiset(Categories(NewestFirst(store)))[acc[i].0]
    ensures forall i :: 0 <= i < |acc| ==> acc[i].1 == Count(store, HasCategory(acc[i].0))
  {
    var cs := NewestFirst(store);
    forall i | 0 <= i < |acc| ensures acc[i].1 == Count(store, HasCategory(acc[i].0)) {
      CategoryOccurrences(cs, acc[i].0);
      CountPermutation(cs, store, HasCategory(acc[i].0));
    }
  }

  /** Each status's entry counts the stored complaints in that status. */
  lemma StatusCountsMatch(store: seq<Complaint>, acc: seq<(Status, nat)>)
    requires forall i :: 0 <= i < |acc| ==> acc[i].1 == multiset(Statuses(NewestFirst(store)))[acc[i].0]
    ensures forall i :: 0 <= i < |acc| ==> acc[i].1 == Count(store, HasStatus(acc[i].0))
  {
    var cs := NewestFirst(store);
    forall i | 0 <= i < |acc| ensures acc[i].1 == Count(store, HasStatus(acc[i].0)) {
      StatusOccurrences(cs, acc[i].0);
      CountPermutation(cs, store, HasStatus(acc[i].0));
    }
  }

  /** Settled and open complaints are disjoint, so together they are at most the total. */
  lemma ResolvedAndOpenWithinTotal(store: seq<Complaint>)
    ensures Count(store, IsSettledComplaint) + Count(store, IsOpenComplaint) <= |store|
  {
    CountDisjoint(store, IsSettledComplaint, IsOpenComplaint);
  }

  /** A breached complaint is never settled, so breached and resolved together are at most the total. */
  lemma BreachedAndResolvedWithinTotal(store: seq<Complaint>, now: int)
    ensures Count(store, BreachedOpen(now)) + Count(store, IsSettledComplaint) <= |store|
  {
    CountDisjoint(store, BreachedOpen(now), IsSettledComplaint);
  }

  /** The status counts add up to the total: every complaint has exactly one of the four statuses. */
  lemma StatusCountsSumToTotal(store: seq<Complaint>)
    ensures Count(store, HasStatus(Open)) + Count(store, HasStatus(InProgress))
          + Count(store, HasStatus(Resolved)) + Count(store, HasStatus(Closed)) == |store|
  {
    var openOrProgress := (c: Complaint) => c.status == Open || c.status == InProgress;
    var settled := (c: Complaint) => c.status == Resolved || c.status == Closed;
    var any := (c: Complaint) => true;
    CountUnion(store, HasStatus(Open), HasStatus(InProgress), openOrProgress);
    CountUnion(store, HasStatus(Resolved), HasStatus(Closed), settled);
    CountUnion(store, openOrProgress, settled, any);
    AllCounted(store, any);
  }

  lemma {:induction false} AllCounted(cs: seq<Complaint>, p: Complaint -> bool)
    requires forall c :: p(c)
    ensures Count(cs, p) == |cs|
  {
    if cs != [] {
      AllCounted(cs[1..], p);
    }
  }

  /** Wards 1 and 2 hold disjoint complaints, so their totals add up to at most the overall total. */
  lemma WardTotalsWithinTotal(store: seq<Complaint>, now: int)
    ensures WardStatOf(store, 1, now).total + WardStatOf(store, 2, now).total <= |store|
  {
    CountDisjoint(store, InWard(1), InWard(2));
  }
}

=== FILE: complaints.dfy ===
/**
 * The complaint table and the two server actions that write to it: `submitComplaint`, which
 * files a new complaint from the citizen's form, and `updateComplaintStatus`, which an officer's
 * dashboard calls to change a complaint's status and notes. The row's internal id, its public
 * `complaintId` and the current time, all supplied by the database, are parameters.
 */
module Complaints {
  import opened Wrappers
  import opened Text
  import opened Records

  /** The fields `submitComplaint` reads from the form; `imageUrl` is absent when no image was uploaded. */
  datatype ComplaintForm = ComplaintForm(
    name: string, phone: string, ward: string, category: string, description: string,
    imageUrl: Option<string>)

  /** `imageUrl || null`: an empty or missing URL is stored as null. */
  function NormalizeImageUrl(v: Option<string>): (r: Option<string>)
    ensures r.None? <==> Falsy(v)
    ensures r.Some? ==> r == v
  {
    if Falsy(v) then None else v
  }

  /**
   * The row `prisma.complaint.create` inserts, or `None` when `parseInt(ward, 10)` is `NaN`:
   * the model assumes the database rejects that value, so the action fails and nothing is
   * written.
   */
  function NewComplaint(form: ComplaintForm, id: string, complaintId: string, now: int): (r: Option<Complaint>)
    ensures r.None? <==> ParseInt(form.ward, false).None?
    ensures r.Some? ==>
      && r.value.id == id && r.value.complaintId == complaintId
      && r.value.status == Open && r.value.notes.None?
      && r.value.imageUrl == NormalizeImageUrl(form.imageUrl)
      && Some(r.value.ward) == ParseInt(form.ward, false)
      && r.value.name == form.name && r.value.phone == form.phone
      && r.value.category == form.category && r.value.description == form.description
      && r.value.createdAt == now && r.value.updatedAt == now
  {
    match ParseInt(form.ward, false)
    case None => None
    case Some(ward) =>
      Some(Complaint(id, complaintId, form.name, form.phone, ward, form.category, form.description,
                     NormalizeImageUrl(form.imageUrl), Open, None, now, now))
  }

  /** Where the citizen is sent after filing: the success page, told the public complaint id. */
  function SuccessLocation(complaintId: string): (location: string)
    ensures StartsWith(location, "/submit/success?id=")
    ensures location[|"/submit/success?id="|..] == complaintId
  {
    "/submit/success?id=" + complaintId
  }

  datatype SubmitOutcome = SubmitFailed | SubmitRedirect(location: string)

  /**
   * The record after an update: status and `updatedAt` replaced, notes replaced only when given
   * (Prisma leaves a field passed as `undefined` untouched), every other field as it was.
   */
  function Updated(c: Complaint, status: Status, notes: Option<string>, now: int): (r: Complaint)
    ensures r.status == status && r.updatedAt == now
    ensures r.notes == if notes.Some? then notes else c.notes
    ensures r.(status := c.status, notes := c.notes, updatedAt := c.updatedAt) == c
  {
    c.(status := status, notes := if notes.Some? then notes else c.notes, updatedAt := now)
  }

  /**
   * The table after `prisma.complaint.update({ where: { id } })`: the row whose internal `id`
   * matches is updated; when there is none the table is unchanged (Prisma throws).
   */
  function SetStatus(cs: seq<Complaint>, id: string, status: Status, notes: Option<string>, now: int): (r: seq<Complaint>)
    ensures |r| == |cs|
    ensures IndexOf(cs, id).None? ==> r == cs
  {
    match IndexOf(cs, id)
    case None => cs
    case Some(i) => cs[i := Updated(cs[i], status, notes, now)]
  }

  /**
   * The update touches exactly the row with that internal id (not the one whose public
   * `complaintId` matches) and only its status, notes and `updatedAt`. Any status may follow
   * any other, RESOLVED to OPEN included, and the action does no role or ward check.
   */
  lemma SetStatusEffect(cs: seq<Complaint>, id: string, status: Status, notes: Option<string>, now: int, k: nat)
    requires UniqueComplaints(cs) && k < |cs|
    ensures var r := SetStatus(cs, id, status, notes, now);
      && (cs[k].id == id ==> r[k] == Updated(cs[k], status, notes, now))
      && (cs[k].id != id ==> r[k] == cs[k])
  {
    match IndexOf(cs, id)
    case None =>
    case Some(i) =>
  }

  /** Updating keeps the table's unique keys: ids and public ids never change. */
  lemma SetStatusKeepsKeys(cs: seq<Complaint>, id: string, status: Status, notes: Option<string>, now: int)
    requires UniqueComplaints(cs)
    ensures var r := SetStatus(cs, id, status, notes, now);
      forall k :: 0 <= k < |cs| ==> r[k].id == cs[k].id && r[k].complaintId == cs[k].complaintId
                                    && r[k].ward == cs[k].ward && r[k].createdAt == cs[k].createdAt
  {
    forall k | 0 <= k < |cs| ensures SetStatus(cs, id, status, notes, now)[k].id == cs[k].id
                                  && SetStatus(cs, id, status, notes, now)[k].complaintId == cs[k].complaintId
                                  && SetStatus(cs, id, status, notes, now)[k].ward == cs[k].ward
                                  && SetStatus(cs, id, status, notes, now)[k].createdAt == cs[k].createdAt
    {
      SetStatusEffect(cs, id, status, notes, now, k);
    }
  }

  /** The complaint table, as the two server actions change it. */
  class ComplaintStore {
    var complaints: seq<Complaint>

    ghost predicate Valid()
      reads this
    {
      UniqueComplaints(complaints)
    }

    constructor (initial: seq<Complaint>)
      requires UniqueComplaints(initial)
      ensures Valid() && complaints == initial
    {
      complaints := initial;
    }

    /** `submitComplaint(formData)`: one new OPEN row at the end, then the redirect to the success page. */
    method SubmitComplaint(form: ComplaintForm, id: string, complaintId: string, now: int) returns (outcome: SubmitOutcome)
      requires Valid()
      requires forall i :: 0 <= i < |complaints| ==> complaints[i].id != id && complaints[i].complaintId != complaintId
      modifies this
      ensures Valid()
      ensures NewComplaint(form, id, complaintId, now).None? ==>
        outcome == SubmitFailed && complaints == old(complaints)
      ensures NewComplaint(form, id, complaintId, now).Some? ==>
        && outcome == SubmitRedirect(SuccessLocation(complaintId))
        && complaints == old(complaints) + [NewComplaint(form, id, complaintId, now).value]
    {
      var created := NewComplaint(form, id, complaintId, now);
      if created.None? {
        return SubmitFailed;
      }
      ghost var before := complaints;
      complaints := complaints + [created.value];
      assert UniqueComplaints(complaints) by {
        forall i, j | 0 <= i < j < |complaints|
          ensures complaints[i].id != complaints[j].id && complaints[i].complaintId != complaints[j].complaintId
        {
          if j == |before| {
            assert complaints[i] == before[i];
          }
        }
      }
      outcome := SubmitRedirect(SuccessLocation(created.value.complaintId));
    }

    /** `updateComplaintStatus(id, status, notes)`: `found` is false when no row has that id. */
    method UpdateComplaintStatus(id: string, status: Status, notes: Option<string>, now: int) returns (found: bool)
      requires Valid()
      modifies this
      ensures Valid()
      ensures found <==> exists k :: 0 <= k < |old(complaints)| && old(complaints)[k].id == id
      ensures complaints == SetStatus(old(complaints), id, status, notes, now)
    {
      var index := IndexOf(complaints, id);
      SetStatusKeepsKeys(complaints, id, status, notes, now);
      if index.None? {
        return false;
      }
      var i := index.value;
      complaints := complaints[i := Updated(complaints[i], status, notes, now)];
      found := true;
    }
  }
}

=== FILE: counting.dfy ===
/**
 * `array.filter(p)` and `array.filter(p).length`, with the counting facts the dashboards'
 * totals rest on.
 */
module Counting {

  function Filter<T(==)>(s: seq<T>, p: T -> bool): (r: seq<T>)
    ensures |r| <= |s|
    ensures forall i :: 0 <= i < |r| ==> p(r[i]) && r[i] in s
    ensures forall i :: 0 <= i < |s| && p(s[i]) ==> s[i] in r
  {
    if s == [] then []
    else (if p(s[0]) then [s[0]] else []) + Filter(s[1..], p)
  }

  function Count<T(==)>(s: seq<T>, p: T -> bool): nat {
    |Filter(s, p)|
  }

  lemma {:induction false} CountAppend<T>(a: seq<T>, b: seq<T>, p: T -> bool)
    ensures Count(a + b, p) == Count(a, p) + Count(b, p)
  {
    if a != [] {
      CountAppend(a[1..], b, p);
      assert (a + b)[0] == a[0];
      assert (a + b)[1..] == a[1..] + b;
    } else {
      assert a + b == b;
    }
  }

  /** Replacing one element changes a count by at most the two elements' contributions. */
  lemma CountUpdate<T>(s: seq<T>, i: nat, x: T, p: T -> bool)
    requires i < |s|
    ensures Count(s[i := x], p) == Count(s, p) - (if p(s[i]) then 1 else 0) + (if p(x) then 1 else 0)
  {
    assert s == s[..i] + [s[i]] + s[i + 1..];
    assert s[i := x] == s[..i] + [x] + s[i + 1..];
    CountAppend(s[..i] + [s[i]], s[i + 1..], p);
    CountAppend(s[..i], [s[i]], p);
    CountAppend(s[..i] + [x], s[i + 1..], p);
    CountAppend(s[..i], [x], p);
  }

  /** Two predicates that never hold together count at most `|s|` elements between them. */
  lemma {:induction false} CountDisjoint<T>(s: seq<T>, p: T -> bool, q: T -> bool)
    requires forall x :: p(x) ==> !q(x)
    ensures Count(s, p) + Count(s, q) <= |s|
  {
    if s != [] {
      CountDisjoint(s[1..], p, q);
    }
  }

  /** A stronger predicate counts no more elements. */
  lemma {:induction false} CountMonotone<T>(s: seq<T>, p: T -> bool, q: T -> bool)
    requires forall x :: p(x) ==> q(x)
    ensures Count(s, p) <= Count(s, q)
  {
    if s != [] {
      CountMonotone(s[1..], p, q);
    }
  }

  /** Counting the elements that satisfy `p` or `q`, when the two never hold together. */
  lemma {:induction false} CountUnion<T>(s: seq<T>, p: T -> bool, q: T -> bool, pq: T -> bool)
    requires forall x :: pq(x) <==> p(x) || q(x)
    requires forall x :: p(x) ==> !q(x)
    ensures Count(s, pq) == Count(s, p) + Count(s, q)
  {
    if s != [] {
      CountUnion(s[1..], p, q, pq);
    }
  }

  lemma {:induction false} FilterMultiplicity<T>(s: seq<T>, p: T -> bool, x: T)
    ensures multiset(Filter(s, p))[x] == if p(x) then multiset(s)[x] else 0
  {
    if s != [] {
      FilterMultiplicity(s[1..], p, x);
      assert s == [s[0]] + s[1..];
    }
  }

  /** Counts do not depend on the order of the elements. */
  lemma CountPermutation<T>(a: seq<T>, b: seq<T>, p: T -> bool)
    requires multiset(a) == multiset(b)
    ensures Count(a, p) == Count(b, p)
  {
    forall x ensures multiset(Filter(a, p))[x] == multiset(Filter(b, p))[x] {
      FilterMultiplicity(a, p, x);
      FilterMultiplicity(b, p, x);
    }
    assert multiset(Filter(a, p)) == multiset(Filter(b, p));
    assert |multiset(Filter(a, p))| == |multiset(Filter(b, p))|;
  }
}

=== FILE: filters.dfy ===
/**
 * The per-complaint tests the dashboards count by, among them the status-aware breach test
 * both dashboards apply on top of `getSLAStatus`: old enough AND neither RESOLVED nor CLOSED.
 */
module Filters {
  import opened Wrappers
  import opened Records
  import opened Sla
  import opened Counting
  import opened Complaints

  function CreatedAt(c: Complaint): int {
    c.createdAt
  }

  /** `c.status === RESOLVED || c.status === CLOSED`. */
  function IsSettledComplaint(c: Complaint): bool {
    c.status.IsSettled()
  }

  /** `c.status === OPEN`. */
  function IsOpenComplaint(c: Complaint): bool {
    c.status == Open
  }

  /** `getSLAStatus(c.createdAt).isBreached && c.status !== RESOLVED && c.status !== CLOSED`. */
  function BreachedOpen(now: int): (breached: Complaint -> bool)
    ensures forall c: Complaint :: c.status.IsSettled() ==> !breached(c)
    ensures forall c: Complaint :: now - c.createdAt < BreachDays * MsPerDay ==> !breached(c)
  {
    var breached := (c: Complaint) => GetSlaStatus(c.createdAt, now).isBreached && !c.status.IsSettled();
    assert forall c: Complaint :: now - c.createdAt < BreachDays * MsPerDay ==> !breached(c) by {
      forall c: Complaint | now - c.createdAt < BreachDays * MsPerDay ensures !breached(c) {
        BreachedIffThreeDaysElapsed(c.createdAt, now);
      }
    }
    breached
  }

  function InWard(ward: int): Complaint -> bool {
    (c: Complaint) => c.ward == ward
  }

  function HasStatus(status: Status): Complaint -> bool {
    (c: Complaint) => c.status == status
  }

  function HasCategory(category: string): Complaint -> bool {
    (c: Complaint) => c.category == category
  }

  /** Both tests hold. */
  function Both(p: Complaint -> bool, q: Complaint -> bool): Complaint -> bool {
    (c: Complaint) => p(c) && q(c)
  }

  /** The breach test is the age test restricted to unsettled complaints. */
  lemma BreachedOpenMeaning(now: int, c: Complaint)
    ensures BreachedOpen(now)(c) <==> now - c.createdAt >= BreachDays * MsPerDay && c.status in {Open, InProgress}
  {
    BreachedIffThreeDaysElapsed(c.createdAt, now);
  }

  /**
   * Marking a complaint RESOLVED takes it out of the breach count at once, whatever its age,
   * and changes no other complaint's contribution.
   */
  lemma ResolvingClearsBreach(cs: seq<Complaint>, k: nat, notes: Option<string>, updatedAt: int, now: int)
    requires UniqueComplaints(cs) && k < |cs|
    ensures var after := SetStatus(cs, cs[k].id, Resolved, notes, updatedAt);
      && !BreachedOpen(now)(after[k])
      && Count(after, BreachedOpen(now)) == Count(cs, BreachedOpen(now)) - (if BreachedOpen(now)(cs[k]) then 1 else 0)
  {
    var after := SetStatus(cs, cs[k].id, Resolved, notes, updatedAt);
    SetStatusEffect(cs, cs[k].id, Resolved, notes, updatedAt, k);
    var updated := Updated(cs[k], Resolved, notes, updatedAt);
    assert after == cs[k := updated] by {
      forall j | 0 <= j < |cs| ensures after[j] == cs[k := updated][j] {
        SetStatusEffect(cs, cs[k].id, Resolved, notes, updatedAt, j);
      }
    }
    CountUpdate(cs, k, updated, BreachedOpen(now));
  }
}

=== FILE: login.dfy ===
/**
 * `POST /api/login`: validate the body, look the email up, check the password, and on
 * success hand back the session claims (which `createSession` signs into the `session`
 * cookie) and the home page for the user's role. `comparePassword` (a bcrypt comparison
 * in the application) is a parameter.
 */
module Login {
  import opened Wrappers
  import opened Text
  import opened Records
  import Middleware

  datatype LoginBody =
    | Unparsable                                            // `request.json()` threw
    | LoginBody(email: Option<string>, password: Option<string>)

  datatype LoginResponse =
    | Failure(status: int, error: string)
    /** 200 with `{ success, role, redirect }`; `session` is what the cookie now carries. */
    | Success(role: Role, redirect: string, session: SessionPayload)

  const MissingFields := Failure(400, "Email and password are required")
  const InvalidCredentials := Failure(401, "Invalid credentials")
  const InternalError := Failure(500, "Internal server error")

  /** The claims `createSession` is given: the user's id, name, email, role and ward. */
  function Claims(u: User): (s: SessionPayload)
    ensures s.id == u.id && s.name == u.name && s.email == u.email && s.role == u.role && s.ward == u.ward
  {
    SessionPayload(u.id, u.name, u.email, u.role, u.ward)
  }

  /** The redirect in the response: the admin home for ADMIN, the officer home for every other role. */
  function HomeFor(role: Role): (path: string)
    ensures path == Middleware.AdminHome <==> role == Admin
  {
    if role == Admin then Middleware.AdminHome else Middleware.OfficerHome
  }

  function HandleLogin(body: LoginBody, users: seq<User>, comparePassword: (string, string) -> bool): (r: LoginResponse)
    ensures r.Success? ==>
      && body.LoginBody? && !Falsy(body.email) && !Falsy(body.password)
      && FindByEmail(users, body.email.value).Some?
      && var u := FindByEmail(users, body.email.value).value;
         comparePassword(body.password.value, u.password)
         && r.session == Claims(u) && r.role == u.role && r.redirect == HomeFor(u.role)
    ensures r.Failure? ==> r in {MissingFields, InvalidCredentials, InternalError}
  {
    match body
    case Unparsable => InternalError
    case LoginBody(email, password) =>
      if Falsy(email) || Falsy(password) then MissingFields
      else match FindByEmail(users, email.value)
        case None => InvalidCredentials
        case Some(user) =>
          if !comparePassword(password.value, user.password) then InvalidCredentials
          else Success(user.role, HomeFor(user.role), Claims(user))
  }

  /** A missing or empty field is rejected with 400 before the user table or the password check is consulted. */
  lemma MissingFieldsRejectedFirst(email: Option<string>, password: Option<string>,
                                   users: seq<User>, comparePassword: (string, string) -> bool)
    requires Falsy(email) || Falsy(password)
    ensures HandleLogin(LoginBody(email, password), users, comparePassword) == MissingFields
    ensures forall other: seq<User> ::
      HandleLogin(LoginBody(email, password), other, comparePassword) == HandleLogin(LoginBody(email, password), users, comparePassword)
  {
  }

  /** An unknown email and a wrong password get the very same 401 response. */
  lemma FailuresIndistinguishable(email: string, password: string, users: seq<User>, comparePassword: (string, string) -> bool)
    requires email != "" && password != ""
    requires FindByEmail(users, email).None? || !comparePassword(password, FindByEmail(users, email).value.password)
    ensures HandleLogin(LoginBody(Some(email), Some(password)), users, comparePassword) == InvalidCredentials
  {
  }

  /** Login succeeds exactly when both fields are present, the email is known and the password matches its hash. */
  lemma SuccessIff(email: string, password: string, users: seq<User>, comparePassword: (string, string) -> bool)
    requires UniqueUsers(users)
    ensures HandleLogin(LoginBody(Some(email), Some(password)), users, comparePassword).Success?
        <==> email != "" && password != ""
             && exists u :: u in users && u.email == email && comparePassword(password, u.password)
  {
    if exists u :: u in users && u.email == email && comparePassword(password, u.password) {
      var u :| u in users && u.email == email && comparePassword(password, u.password);
      FindByEmailUnique(users, u);
    }
  }

  /** A body that cannot be parsed as JSON ends in the fixed 500 response. */
  lemma UnparsableIsInternalError(users: seq<User>, comparePassword: (string, string) -> bool)
    ensures HandleLogin(Unparsable, users, comparePassword) == InternalError
  {
  }
}

=== FILE: middleware.dfy ===
/**
 * The route guard that runs before every request the matcher selects: it classifies the
 * path by prefix, reads the session cookie, and either lets the request through or
 * redirects it to the login page or to a role's home.
 */
module Middleware {
  import opened Wrappers
  import opened Text
  import opened Records
  import opened Session

  const LoginPath := "/login"
  const AdminHome := "/dashboard/admin"
  const OfficerHome := "/dashboard/officer"

  const ProtectedRoutes: seq<string> := ["/dashboard"]
  const PublicRoutes: seq<string> := ["/login", "/", "/submit", "/track"]

  /** `NextResponse.next()` or `NextResponse.redirect(location)`. */
  datatype Decision = Next | Redirect(location: string)

  /** Some protected route is a prefix of `path` (plain `startsWith`, so "/dashboardX" counts). */
  predicate IsProtectedRoute(path: string): (b: bool)
    ensures b <==> StartsWith(path, "/dashboard")
  {
    assert |ProtectedRoutes| == 1 && ProtectedRoutes[0] == "/dashboard";
    exists i :: 0 <= i < |ProtectedRoutes| && StartsWith(path, ProtectedRoutes[i])
  }

  /** Computed by the guard but never consulted by any of its decisions; no public route is protected. */
  predicate IsPublicRoute(path: string): (b: bool)
    ensures b ==> !IsProtectedRoute(path)
  {
    assert path in PublicRoutes || StartsWith(path, "/submit/success") ==> !StartsWith(path, "/dashboard") by {
      if path !in PublicRoutes && StartsWith(path, "/submit/success") {
        assert path[1] == "/submit/success"[1];
      }
    }
    path in PublicRoutes || StartsWith(path, "/submit/success")
  }

  /** The guard's decision for a path and the session read from the cookie. */
  function Decide(path: string, session: Option<SessionPayload>): (d: Decision)
    ensures d.Redirect? ==> d.location in {LoginPath, AdminHome, OfficerHome}
    ensures d == Redirect(LoginPath) <==> IsProtectedRoute(path) && session.None?
  {
    if IsProtectedRoute(path) && session.None? then Redirect(LoginPath)
    else if path == LoginPath && session.Some? && session.value.role == Admin then Redirect(AdminHome)
    else if path == LoginPath && session.Some? && session.value.role == Officer then Redirect(OfficerHome)
    else if session.Some? && StartsWith(path, "/dashboard") then
      if StartsWith(path, AdminHome) && session.value.role != Admin then Redirect(OfficerHome)
      else if StartsWith(path, OfficerHome) && session.value.role != Officer then Redirect(AdminHome)
      else Next
    else Next
  }

  /** `middleware(request)`: decode the `session` cookie, then decide. */
  function Guard(path: string, cookie: Option<string>, decrypt: string -> Option<SessionPayload>): (d: Decision)
    ensures cookie.None? || cookie.value == [] ==> d == Decide(path, None)
    ensures cookie.Some? && cookie.value != [] ==> d == Decide(path, decrypt(cookie.value))
  {
    Decide(path, SessionOf(cookie, decrypt))
  }

  /** `config.matcher`: "/dashboard/:path*" (the bare "/dashboard" included) and "/login". */
  predicate Matched(path: string): (b: bool)
    ensures b ==> path == LoginPath || IsProtectedRoute(path)
  {
    path == LoginPath || path == "/dashboard" || StartsWith(path, "/dashboard/")
  }

  /** What a request meets: the guard on matched paths, and nothing at all elsewhere. */
  function Route(path: string, cookie: Option<string>, decrypt: string -> Option<SessionPayload>): (d: Decision)
    ensures !Matched(path) ==> d == Next
  {
    if Matched(path) then Guard(path, cookie, decrypt) else Next
  }

  lemma AdminHomeUnderDashboard()
    ensures StartsWith(AdminHome, "/dashboard") && StartsWith(AdminHome, AdminHome)
    ensures !StartsWith(AdminHome, OfficerHome)
  {
    assert AdminHome[..|"/dashboard"|] == "/dashboard";
  }

  lemma OfficerHomeUnderDashboard()
    ensures StartsWith(OfficerHome, "/dashboard") && StartsWith(OfficerHome, OfficerHome)
    ensures !StartsWith(OfficerHome, AdminHome)
  {
    assert OfficerHome[..|"/dashboard"|] == "/dashboard";
    assert OfficerHome[..|AdminHome|] != AdminHome by {
      assert OfficerHome[11] != AdminHome[11];
    }
  }

  lemma LoginNotProtected()
    ensures !IsProtectedRoute(LoginPath) && !StartsWith(LoginPath, "/dashboard")
  {
    assert LoginPath[1] != "/dashboard"[1];
  }

  /** Any path under "/dashboard" without a session is sent to the login page. */
  lemma NoSessionDashboardGoesToLogin(path: string)
    requires StartsWith(path, "/dashboard")
    ensures Decide(path, None) == Redirect(LoginPath)
  {
    assert StartsWith(path, ProtectedRoutes[0]);
  }

  /** A cookie that fails to decrypt and a missing cookie lead to the same decision on every path. */
  lemma UndecryptableCookieSameAsNone(path: string, token: string, decrypt: string -> Option<SessionPayload>)
    requires decrypt(token).None?
    ensures Guard(path, Some(token), decrypt) == Guard(path, None, decrypt)
  {
    UndecryptableIsAbsent(token, decrypt);
  }

  /** Signed-in staff are sent from the login page to their home; a citizen stays on it. */
  lemma LoginPageRedirects(s: SessionPayload)
    ensures s.role == Admin ==> Decide(LoginPath, Some(s)) == Redirect(AdminHome)
    ensures s.role == Officer ==> Decide(LoginPath, Some(s)) == Redirect(OfficerHome)
    ensures s.role == Citizen ==> Decide(LoginPath, Some(s)) == Next
  {
    LoginNotProtected();
  }

  /** Only an administrator gets past "/dashboard/admin…"; everyone else is sent to the officer home. */
  lemma AdminPrefixGuarded(path: string, s: SessionPayload)
    requires StartsWith(path, AdminHome)
    ensures s.role != Admin ==> Decide(path, Some(s)) == Redirect(OfficerHome)
    ensures s.role == Admin ==> Decide(path, Some(s)) == Next
  {
    assert path[..|"/dashboard"|] == AdminHome[..|"/dashboard"|];
    AdminHomeUnderDashboard();
    assert path != LoginPath by { assert path[1] == 'd'; }
    assert !StartsWith(path, OfficerHome) by {
      assert path[11] == AdminHome[11];
      assert |path| < |OfficerHome| || path[..|OfficerHome|][11] != OfficerHome[11];
    }
  }

  /** Only an officer gets past "/dashboard/officer…"; everyone else is sent to the admin home. */
  lemma OfficerPrefixGuarded(path: string, s: SessionPayload)
    requires StartsWith(path, OfficerHome)
    ensures s.role != Officer ==> Decide(path, Some(s)) == Redirect(AdminHome)
    ensures s.role == Officer ==> Decide(path, Some(s)) == Next
  {
    assert path[..|"/dashboard"|] == OfficerHome[..|"/dashboard"|];
    OfficerHomeUnderDashboard();
    assert path != LoginPath by { assert path[1] == 'd'; }
    assert !StartsWith(path, AdminHome) by {
      assert path[11] == OfficerHome[11];
      assert path[..|AdminHome|][11] != AdminHome[11];
    }
  }

  /**
   * Following a redirect never loops for visitors without a session or for staff: the target
   * of every redirect is let through on the next request with the same session.
   */
  lemma RedirectTargetAllowed(path: string, session: Option<SessionPayload>)
    requires session.None? || session.value.role != Citizen
    requires Decide(path, session).Redirect?
    ensures Decide(Decide(path, session).location, session) == Next
  {
    var t := Decide(path, session).location;
    if t == LoginPath {
      LoginNotProtected();
    } else if t == AdminHome {
      AdminPrefixGuarded(AdminHome, session.value);
    } else {
      OfficerPrefixGuarded(OfficerHome, session.value);
    }
  }

  /** A citizen session bounces between the two dashboards forever. */
  lemma CitizenRedirectCycle(s: SessionPayload)
    requires s.role == Citizen
    ensures Decide(AdminHome, Some(s)) == Redirect(OfficerHome)
    ensures Decide(OfficerHome, Some(s)) == Redirect(AdminHome)
  {
    AdminPrefixGuarded(AdminHome, s);
    OfficerPrefixGuarded(OfficerHome, s);
  }

  /**
   * The public-route classification plays no part: every public path other than the login
   * page is let through whatever the session.
   */
  lemma PublicRoutesPassThrough(path: string, session: Option<SessionPayload>)
    requires IsPublicRoute(path) && path != LoginPath
    ensures Decide(path, session) == Next
  {
    assert !StartsWith(path, "/dashboard") by {
      if path !in PublicRoutes {
        assert path[1] == "/submit/success"[1];
      }
    }
    assert !IsProtectedRoute(path);
  }

  /**
   * Prefix matching is plain `startsWith`: the guard treats "/dashboardX" as protected, but the
   * matcher never hands that path to it, so the request goes through.
   */
  lemma DashboardLookalike(cookie: Option<string>, decrypt: string -> Option<SessionPayload>)
    ensures IsProtectedRoute("/dashboardX") && Decide("/dashboardX", None) == Redirect(LoginPath)
    ensures Route("/dashboardX", cookie, decrypt) == Next
  {
    assert StartsWith("/dashboardX", ProtectedRoutes[0]) by {
      assert "/dashboardX"[..10] == "/dashboard";
    }
    assert !StartsWith("/dashboardX", "/dashboard/") by {
      assert "/dashboardX"[10] != "/dashboard/"[10];
    }
  }
}

=== FILE: officer_dashboard.dfy ===
/**
 * The ward officer's dashboard: a guard, the complaints of the officer's ward (optionally of
 * one status), newest first, and three figures over that list.
 */
module OfficerDashboard {
  import opened Wrappers
  import opened Text
  import opened Records
  import opened Ordering
  import opened Counting
  import opened Filters
  import Middleware

  datatype OfficerStats = OfficerStats(total: nat, open: nat, breached: nat)

  datatype OfficerView = OfficerView(ward: int, complaints: seq<Complaint>, stats: OfficerStats)

  /**
   * What the page does: redirect, fail on a `status` parameter that names no status (the
   * database rejects it as a value of the `Status` enum), or render.
   */
  datatype OfficerPage = OfficerRedirect(location: string) | BadStatusFilter | OfficerPage(view: OfficerView)

  /** The enum value a query-string status names, if any. */
  function ParseStatus(s: string): (r: Option<Status>)
    ensures r.Some? ==> r.value.Name() == s
    ensures r.None? ==> forall st: Status :: st.Name() != s
  {
    if s == "OPEN" then Some(Open)
    else if s == "IN_PROGRESS" then Some(InProgress)
    else if s == "RESOLVED" then Some(Resolved)
    else if s == "CLOSED" then Some(Closed)
    else None
  }

  /** The query's `where`: the officer's ward, and the status when one is given. */
  function Matches(ward: int, filter: Option<Status>): (matches: Complaint -> bool)
    ensures forall c: Complaint :: matches(c) ==> c.ward == ward
    ensures forall c: Complaint :: filter.Some? && matches(c) ==> c.status == filter.value
    ensures forall c: Complaint :: filter.None? ==> (matches(c) <==> c.ward == ward)
  {
    (c: Complaint) => c.ward == ward && (filter.None? || c.status == filter.value)
  }

  /**
   * `OfficerDashboard()`. A session without the OFFICER role or without a ward goes to the
   * login page. A falsy `status` parameter (absent or empty) does not filter.
   */
  function OfficerDashboardPage(session: Option<SessionPayload>, statusParam: Option<string>, store: seq<Complaint>, now: int): (page: OfficerPage)
    ensures page.OfficerRedirect? <==>
      session.None? || session.value.role != Officer || session.value.ward.None?
    ensures page.OfficerRedirect? ==> page.location == Middleware.LoginPath
    ensures page.BadStatusFilter? <==>
      !page.OfficerRedirect? && !Falsy(statusParam) && ParseStatus(statusParam.value).None?
    ensures page.OfficerPage? ==>
      var v := page.view;
      var filter := if Falsy(statusParam) then None else ParseStatus(statusParam.value);
      && v.ward == session.value.ward.value
      && multiset(v.complaints) == multiset(Filter(store, Matches(v.ward, filter)))
      && SortedDesc(v.complaints, CreatedAt)
      && v.stats.total == |v.complaints|
      && v.stats.open == Count(v.complaints, IsOpenComplaint)
      && v.stats.breached == Count(v.complaints, BreachedOpen(now))
  {
    if session.None? || session.value.role != Officer || session.value.ward.None? then
      OfficerRedirect(Middleware.LoginPath)
    else
      var ward := session.value.ward.value;
      var filter := if Falsy(statusParam) then None else ParseStatus(statusParam.value);
      if !Falsy(statusParam) && filter.None? then BadStatusFilter
      else
        var complaints := SortDesc(Filter(store, Matches(ward, filter)), CreatedAt);
        OfficerPage(OfficerView(ward, complaints, OfficerStats(
          |complaints|,
          Count(complaints, IsOpenComplaint),
          Count(complaints, BreachedOpen(now)))))
  }

  /** Every listed complaint belongs to the officer's ward and, with a filter, has its status. */
  lemma ListedMatchFilter(session: Option<SessionPayload>, statusParam: Option<string>, store: seq<Complaint>, now: int, c: Complaint)
    requires OfficerDashboardPage(session, statusParam, store, now).OfficerPage?
    requires c in OfficerDashboardPage(session, statusParam, store, now).view.complaints
    ensures c in store
    ensures c.ward == session.value.ward.value
    ensures !Falsy(statusParam) ==> c.status.Name() == statusParam.value
  {
    var v := OfficerDashboardPage(session, statusParam, store, now).view;
    var filter := if Falsy(statusParam) then None else ParseStatus(statusParam.value);
    var listed := Filter(store, Matches(v.ward, filter));
    assert c in multiset(listed);
    FilterMembers(store, Matches(v.ward, filter), c);
  }

  /** The members of a filtered sequence are members of the sequence that pass the test. */
  lemma FilterMembers(s: seq<Complaint>, p: Complaint -> bool, c: Complaint)
    ensures c in Filter(s, p) <==> c in s && p(c)
  {
    if c in Filter(s, p) {
      var i :| 0 <= i < |Filter(s, p)| && Filter(s, p)[i] == c;
    }
    if c in s && p(c) {
      var i :| 0 <= i < |s| && s[i] == c;
    }
  }

  /** Without a filter every complaint of the ward is listed, as often as it is stored. */
  lemma UnfilteredListsWholeWard(session: Option<SessionPayload>, store: seq<Complaint>, now: int, c: Complaint)
    requires OfficerDashboardPage(session, None, store, now).OfficerPage?
    requires c in store && c.ward == session.value.ward.value
    ensures c in OfficerDashboardPage(session, None, store, now).view.complaints
  {
    var v := OfficerDashboardPage(session, None, store, now).view;
    FilterMembers(store, Matches(v.ward, None), c);
    assert c in multiset(v.complaints);
  }

  /** An empty `status` parameter is the same as none. */
  lemma EmptyFilterIsNoFilter(session: Option<SessionPayload>, store: seq<Complaint>, now: int)
    ensures OfficerDashboardPage(session, Some(""), store, now) == OfficerDashboardPage(session, None, store, now)
  {
  }

  /**
   * The figures: open and breached are each at most the total. A breached complaint is never
   * RESOLVED or CLOSED, so breached and settled complaints together are at most the total.
   */
  lemma StatsBounds(session: Option<SessionPayload>, statusParam: Option<string>, store: seq<Complaint>, now: int)
    requires OfficerDashboardPage(session, statusParam, store, now).OfficerPage?
    ensures var s := OfficerDashboardPage(session, statusParam, store, now).view.stats;
      s.open <= s.total && s.breached <= s.total
    ensures var v := OfficerDashboardPage(session, statusParam, store, now).view;
      Count(v.complaints, BreachedOpen(now)) + Count(v.complaints, IsSettledComplaint) <= v.stats.total
  {
    var v := OfficerDashboardPage(session, statusParam, store, now).view;
    CountDisjoint(v.complaints, BreachedOpen(now), IsSettledComplaint);
  }

  /** Filtering by RESOLVED or CLOSED always shows zero breached complaints. */
  lemma SettledFilterHasNoBreaches(session: Option<SessionPayload>, statusParam: Option<string>, store: seq<Complaint>, now: int)
    requires OfficerDashboardPage(session, statusParam, store, now).OfficerPage?
    requires statusParam == Some("RESOLVED") || statusParam == Some("CLOSED")
    ensures OfficerDashboardPage(session, statusParam, store, now).view.stats.breached == 0
  {
    var page := OfficerDashboardPage(session, statusParam, store, now);
    var filter := ParseStatus(statusParam.value);
    assert filter == Some(Resolved) || filter == Some(Closed);
    var q := Matches(page.view.ward, filter);
    assert multiset(page.view.complaints) == multiset(Filter(store, q));
    assert forall c :: q(c) ==> !BreachedOpen(now)(c);
    NoneCounted(page.view.complaints, BreachedOpen(now), Filter(store, q), q);
  }

  /** A test that no member of a permutation of a `q`-filtered sequence passes counts zero. */
  lemma NoneCounted(cs: seq<Complaint>, p: Complaint -> bool, listed: seq<Complaint>, q: Complaint -> bool)
    requires forall i :: 0 <= i < |listed| ==> q(listed[i])
    requires multiset(cs) == multiset(listed)
    requires forall c :: q(c) ==> !p(c)
    ensures Count(cs, p) == 0
  {
    CountPermutation(cs, listed, p);
    NoneCountedSeq(listed, p, q);
  }

  lemma {:induction false} NoneCountedSeq(s: seq<Complaint>, p: Complaint -> bool, q: Complaint -> bool)
    requires forall i :: 0 <= i < |s| ==> q(s[i])
    requires forall c :: q(c) ==> !p(c)
    ensures Count(s, p) == 0
  {
    if s != [] {
      NoneCountedSeq(s[1..], p, q);
    }
  }
}

=== FILE: officers.dfy ===
/**
 * `/api/officers`: the administrator's view of officer accounts. GET lists them newest first
 * without their password hashes; POST registers a new officer after checking, in this order,
 * the caller's role, the presence of every field and the uniqueness of the email.
 * `hashPassword` (bcrypt in the application) and the new row's id and creation time, which
 * the database supplies, are parameters.
 */
module Officers {
  import opened Wrappers
  import opened Text
  import opened Records
  import opened Ordering
  import opened Counting
  import opened Session

  /** The five columns GET selects: the password hash is not among them. */
  datatype OfficerSummary = OfficerSummary(id: string, name: string, email: string, ward: Option<int>, createdAt: int)

  datatype ListResponse =
    | ListUnauthorized                          // 401 { error: "Unauthorized" }
    | OfficerList(officers: seq<OfficerSummary>)

  function IsOfficer(u: User): bool {
    u.role == Officer
  }

  function Summary(u: User): OfficerSummary {
    OfficerSummary(u.id, u.name, u.email, u.ward, u.createdAt)
  }

  function SummaryCreatedAt(o: OfficerSummary): int {
    o.createdAt
  }

  function Summaries(us: seq<User>): (r: seq<OfficerSummary>)
    ensures |r| == |us| && forall i :: 0 <= i < |us| ==> r[i] == Summary(us[i])
  {
    seq(|us|, i requires 0 <= i < |us| => Summary(us[i]))
  }

  /** GET: the OFFICER rows, projected, newest first; 401 for anyone but an administrator. */
  function ListOfficers(session: Option<SessionPayload>, users: seq<User>): (r: ListResponse)
    ensures r == ListUnauthorized <==> !IsAdminSession(session)
    ensures r.OfficerList? ==> SortedDesc(r.officers, SummaryCreatedAt)
    ensures r.OfficerList? ==> multiset(r.officers) == multiset(Summaries(Filter(users, IsOfficer)))
  {
    if !IsAdminSession(session) then ListUnauthorized
    else OfficerList(SortDesc(Summaries(Filter(users, IsOfficer)), SummaryCreatedAt))
  }

  /** The listing holds the summary of every officer and of nothing else. */
  lemma ListedExactlyOfficers(session: Option<SessionPayload>, users: seq<User>)
    requires IsAdminSession(session)
    ensures forall o :: o in ListOfficers(session, users).officers <==> exists u :: u in users && u.role == Officer && o == Summary(u)
  {
    var listed := ListOfficers(session, users).officers;
    var officers := Filter(users, IsOfficer);
    var summaries := Summaries(officers);
    forall o ensures o in listed <==> exists u :: u in users && u.role == Officer && o == Summary(u) {
      assert o in listed <==> o in multiset(summaries);
      if o in summaries {
        var i :| 0 <= i < |summaries| && summaries[i] == o;
        assert officers[i] in users && IsOfficer(officers[i]);
      }
      if exists u :: u in users && u.role == Officer && o == Summary(u) {
        var u :| u in users && u.role == Officer && o == Summary(u);
        var k :| 0 <= k < |users| && users[k] == u;
        assert users[k] in officers;
        var i :| 0 <= i < |officers| && officers[i] == u;
        assert summaries[i] == o;
      }
    }
  }

  datatype CreateBody =
    | Unparsable                                // `request.json()` threw
    | CreateBody(name: Option<string>, email: Option<string>, password: Option<string>, ward: Option<string>)

  /** The four columns the 201 response selects: again no password. */
  datatype CreatedOfficer = CreatedOfficer(id: string, name: string, email: string, ward: Option<int>)

  datatype CreateResponse =
    | CreateFailure(status: int, error: string)
    | Created(officer: CreatedOfficer)          // 201

  const CreateUnauthorized := CreateFailure(401, "Unauthorized")
  const FieldsRequired := CreateFailure(400, "All fields are required")
  const EmailInUse := CreateFailure(400, "Email already in use")
  const CreateInternalError := CreateFailure(500, "Internal server error")

  datatype CreateOutcome = CreateOutcome(response: CreateResponse, users: seq<User>)

  /**
   * POST: the response and the user table afterwards. A `ward` that `parseInt` reads as `NaN`
   * is taken to make the insert fail, which the handler's catch turns into a 500; the column
   * is nullable, so this is an assumption about the database, not something the route checks.
   */
  function CreateOfficer(session: Option<SessionPayload>, body: CreateBody, users: seq<User>,
                         hashPassword: string -> string, newId: string, now: int): (o: CreateOutcome)
    ensures o.response.Created? ==>
      && IsAdminSession(session) && body.CreateBody?
      && !Falsy(body.name) && !Falsy(body.email) && !Falsy(body.password) && !Falsy(body.ward)
      && FindByEmail(users, body.email.value).None?
      && |o.users| == |users| + 1 && o.users[..|users|] == users
      && var u := o.users[|users|];
         u.id == newId && u.name == body.name.value && u.email == body.email.value
         && u.password == hashPassword(body.password.value) && u.role == Officer
         && u.ward == ParseInt(body.ward.value, true) && u.ward.Some? && u.createdAt == now
         && o.response.officer == CreatedOfficer(u.id, u.name, u.email, u.ward)
    ensures o.response.CreateFailure? ==> o.users == users
    ensures (IsAdminSession(session) && body.CreateBody? &&
             !Falsy(body.name) && !Falsy(body.email) && !Falsy(body.password) && !Falsy(body.ward) &&
             FindByEmail(users, body.email.value).None? && ParseInt(body.ward.value, true).Some?) ==>
      o.response.Created?
  {
    if !IsAdminSession(session) then CreateOutcome(CreateUnauthorized, users)
    else match body
      case Unparsable => CreateOutcome(CreateInternalError, users)
      case CreateBody(name, email, password, ward) =>
        if Falsy(name) || Falsy(email) || Falsy(password) || Falsy(ward) then CreateOutcome(FieldsRequired, users)
        else if FindByEmail(users, email.value).Some? then CreateOutcome(EmailInUse, users)
        else match ParseInt(ward.value, true)
          case None => CreateOutcome(CreateInternalError, users)
          case Some(w) =>
            var u := User(newId, name.value, email.value, hashPassword(password.value), Officer, Some(w), now);
            CreateOutcome(Created(CreatedOfficer(u.id, u.name, u.email, u.ward)), users + [u])
  }

  /** Without an administrator's session nothing else is looked at, not even the body. */
  lemma NonAdminRejected(session: Option<SessionPayload>, body: CreateBody, users: seq<User>,
                         hashPassword: string -> string, newId: string, now: int)
    requires !IsAdminSession(session)
    ensures CreateOfficer(session, body, users, hashPassword, newId, now) == CreateOutcome(CreateUnauthorized, users)
  {
  }

  /** An administrator's request whose body is not JSON fails in `request.json()` and gets a 500. */
  lemma UnparsableIsInternalError(session: Option<SessionPayload>, users: seq<User>,
                                  hashPassword: string -> string, newId: string, now: int)
    requires IsAdminSession(session)
    ensures CreateOfficer(session, Unparsable, users, hashPassword, newId, now) == CreateOutcome(CreateInternalError, users)
  {
  }

  /** A missing field is reported even when the email is also taken: the field check runs first. */
  lemma MissingFieldBeforeDuplicate(session: Option<SessionPayload>, name: Option<string>, email: Option<string>,
                                    password: Option<string>, ward: Option<string>, users: seq<User>,
                                    hashPassword: string -> string, newId: string, now: int)
    requires IsAdminSession(session)
    requires Falsy(name) || Falsy(email) || Falsy(password) || Falsy(ward)
    ensures CreateOfficer(session, CreateBody(name, email, password, ward), users, hashPassword, newId, now)
         == CreateOutcome(FieldsRequired, users)
  {
  }

  /** Registering an email that is already in the table is refused and the table stays as it was. */
  lemma DuplicateEmailRejected(session: Option<SessionPayload>, name: string, existing: User,
                               password: string, ward: string, users: seq<User>,
                               hashPassword: string -> string, newId: string, now: int)
    requires IsAdminSession(session) && existing in users
    requires name != "" && existing.email != "" && password != "" && ward != ""
    ensures CreateOfficer(session, CreateBody(Some(name), Some(existing.email), Some(password), Some(ward)),
                          users, hashPassword, newId, now)
         == CreateOutcome(EmailInUse, users)
  {
  }

  /** A ward written as a decimal numeral is stored as that number. */
  lemma DecimalWardStored(session: Option<SessionPayload>, name: string, email: string, password: string, ward: int,
                          users: seq<User>, hashPassword: string -> string, newId: string, now: int)
    requires IsAdminSession(session) && name != "" && email != "" && password != ""
    requires FindByEmail(users, email).None?
    ensures var o := CreateOfficer(session, CreateBody(Some(name), Some(email), Some(password), Some(DecimalString(ward))),
                                   users, hashPassword, newId, now);
      o.response == Created(CreatedOfficer(newId, name, email, Some(ward)))
      && o.users == users + [User(newId, name, email, hashPassword(password), Officer, Some(ward), now)]
  {
    ParseDecimalString(ward, true);
    assert DecimalString(ward) != "" by {
      var z := Digits(if ward < 0 then -ward else ward);
    }
  }

  /** A newly registered officer shows up in the administrator's listing. */
  lemma CreatedOfficerListed(session: Option<SessionPayload>, body: CreateBody, users: seq<User>,
                             hashPassword: string -> string, newId: string, now: int)
    requires CreateOfficer(session, body, users, hashPassword, newId, now).response.Created?
    ensures var o := CreateOfficer(session, body, users, hashPassword, newId, now);
      Summary(o.users[|users|]) in ListOfficers(session, o.users).officers
  {
    var o := CreateOfficer(session, body, users, hashPassword, newId, now);
    var u := o.users[|users|];
    ListedExactlyOfficers(session, o.users);
    assert u in o.users && u.role == Officer;
  }

  /** The officers' table: every officer has a ward, and emails and ids are unique. */
  ghost predicate WellFormed(users: seq<User>) {
    UniqueUsers(users) && forall i :: 0 <= i < |users| && users[i].role == Officer ==> users[i].ward.Some?
  }

  /** A successful registration keeps the table well formed when the database's new id is fresh. */
  lemma CreatePreservesWellFormed(session: Option<SessionPayload>, body: CreateBody, users: seq<User>,
                                  hashPassword: string -> string, newId: string, now: int)
    requires WellFormed(users)
    requires forall i :: 0 <= i < |users| ==> users[i].id != newId
    ensures WellFormed(CreateOfficer(session, body, users, hashPassword, newId, now).users)
  {
    var o := CreateOfficer(session, body, users, hashPassword, newId, now);
    if o.response.Created? {
      var u := o.users[|users|];
      assert o.users == users + [u];
      AppendFreshUser(users, u);
    }
  }

  lemma AppendFreshUser(users: seq<User>, u: User)
    requires WellFormed(users) && FindByEmail(users, u.email).None?
    requires forall i :: 0 <= i < |users| ==> users[i].id != u.id
    requires u.role == Officer ==> u.ward.Some?
    ensures WellFormed(users + [u])
  {
    var all := users + [u];
    forall i, j | 0 <= i < j < |all| ensures all[i].email != all[j].email && all[i].id != all[j].id {
      if j == |users| {
        assert users[i] in users;
      }
    }
  }

  /** The user table as the POST handler changes it. */
  class UserTable {
    var users: seq<User>

    ghost predicate Valid()
      reads this
    {
      WellFormed(users)
    }

    constructor (initial: seq<User>)
      requires WellFormed(initial)
      ensures Valid() && users == initial
    {
      users := initial;
    }

    /** POST /api/officers: at most one new row, appended only when every check passes. */
    method Post(session: Option<SessionPayload>, body: CreateBody, hashPassword: string -> string,
                newId: string, now: int) returns (response: CreateResponse)
      requires Valid()
      requires forall i :: 0 <= i < |users| ==> users[i].id != newId
      modifies this
      ensures Valid()
      ensures CreateOutcome(response, users) == CreateOfficer(session, body, old(users), hashPassword, newId, now)
    {
      CreatePreservesWellFormed(session, body, users, hashPassword, newId, now);
      if !IsAdminSession(session) {
        return CreateUnauthorized;
      }
      if body.Unparsable? {
        return CreateInternalError;
      }
      var CreateBody(name, email, password, ward) := body;
      if Falsy(name) || Falsy(email) || Falsy(password) || Falsy(ward) {
        return FieldsRequired;
      }
      if FindByEmail(users, email.value).Some? {
        return EmailInUse;
      }
      var parsed := ParseInt(ward.value, true);
      if parsed.None? {
        return CreateInternalError;
      }
      var officer := User(newId, name.value, email.value, hashPassword(password.value), Officer, parsed, now);
      users := users + [officer];
      response := Created(CreatedOfficer(officer.id, officer.name, officer.email, officer.ward));
    }
  }
}

=== FILE: ordering.dfy ===
/**
 * `orderBy: { createdAt: "desc" }`: the store returns rows newest first. The order among
 * rows with equal keys is the database's choice and is not pinned down; the model sorts by
 * insertion, and what the rest of the model relies on is only that the result is ordered
 * by the key, descending, and is a permutation of its input.
 */
module Ordering {

  ghost predicate SortedDesc<T>(s: seq<T>, key: T -> int) {
    forall i, j :: 0 <= i < j < |s| ==> key(s[i]) >= key(s[j])
  }

  /** Inserts `x` before the first element whose key does not exceed its own. */
  function InsertDesc<T(==)>(x: T, s: seq<T>, key: T -> int): (r: seq<T>)
    ensures multiset(r) == multiset(s) + multiset{x}
    ensures SortedDesc(s, key) ==> SortedDesc(r, key)
  {
    if s == [] || key(s[0]) <= key(x) then [x] + s
    else
      var tail := InsertDesc(x, s[1..], key);
      assert s == [s[0]] + s[1..];
      assert SortedDesc(s, key) ==> SortedDesc([s[0]] + tail, key) by {
        if SortedDesc(s, key) {
          HeadDominates(s[0], x, s[1..], tail, key);
        }
      }
      [s[0]] + tail
  }

  /** Prepending a key at least as large as every key of a sorted sequence keeps it sorted. */
  lemma HeadDominates<T>(h: T, x: T, rest: seq<T>, tail: seq<T>, key: T -> int)
    requires key(x) < key(h)
    requires SortedDesc([h] + rest, key)
    requires multiset(tail) == multiset(rest) + multiset{x}
    requires SortedDesc(tail, key)
    ensures SortedDesc([h] + tail, key)
  {
    forall j | 0 <= j < |tail| ensures key(tail[j]) <= key(h) {
      assert tail[j] in multiset(tail);
      if tail[j] != x {
        assert tail[j] in multiset(rest);
        var k :| 0 <= k < |rest| && rest[k] == tail[j];
        assert ([h] + rest)[0] == h && ([h] + rest)[k + 1] == rest[k];
      }
    }
  }

  /** The rows of `s` in descending order of `key`. */
  function SortDesc<T(==)>(s: seq<T>, key: T -> int): (r: seq<T>)
    ensures SortedDesc(r, key)
    ensures multiset(r) == multiset(s) && |r| == |s|
  {
    if s == [] then []
    else
      assert s == [s[0]] + s[1..];
      InsertDesc(s[0], SortDesc(s[1..], key), key)
  }
}

=== FILE: records.dfy ===
/**
 * The records the application stores and the claims a session carries: the `User` and
 * `Complaint` rows of the database, the `Role` and `Status` enumerations, and the
 * `SessionPayload` that `createSession` signs into the `session` cookie (lib/auth.ts).
 */
module Records {
  import opened Wrappers

  datatype Role = Admin | Officer | Citizen {
    /** The enumeration's name as it appears in the database and in session claims. */
    function Name(): string {
      match this
      case Admin => "ADMIN"
      case Officer => "OFFICER"
      case Citizen => "CITIZEN"
    }
  }

  datatype Status = Open | InProgress | Resolved | Closed {
    function Name(): string {
      match this
      case Open => "OPEN"
      case InProgress => "IN_PROGRESS"
      case Resolved => "RESOLVED"
      case Closed => "CLOSED"
    }

    /** RESOLVED or CLOSED: the statuses the dashboards count as done. */
    predicate IsSettled() {
      this == Resolved || this == Closed
    }
  }

  /** The claims of a session token: who is signed in, with which role and (for officers) which ward. */
  datatype SessionPayload = SessionPayload(id: string, name: string, email: string, role: Role, ward: Option<int>)

  /** A row of the user table; `password` holds the stored hash, never the plaintext. */
  datatype User = User(
    id: string, name: string, email: string, password: string,
    role: Role, ward: Option<int>, createdAt: int)

  /**
   * A row of the complaint table. `id` is the internal key; `complaintId` is the distinct
   * identifier shown to citizens for tracking. Times are milliseconds since the epoch.
   */
  datatype Complaint = Complaint(
    id: string, complaintId: string,
    name: string, phone: string, ward: int, category: string, description: string,
    imageUrl: Option<string>, status: Status, notes: Option<string>,
    createdAt: int, updatedAt: int)

  /** `prisma.user.findUnique({ where: { email } })` over the user table. */
  function FindByEmail(users: seq<User>, email: string): (r: Option<User>)
    ensures r.Some? ==> r.value in users && r.value.email == email
    ensures r.None? <==> forall u :: u in users ==> u.email != email
  {
    if users == [] then None
    else if users[0].email == email then Some(users[0])
    else FindByEmail(users[1..], email)
  }

  /** Under the unique-email constraint the lookup finds the one user with that email. */
  lemma {:induction false} FindByEmailUnique(users: seq<User>, u: User)
    requires UniqueUsers(users) && u in users
    ensures FindByEmail(users, u.email) == Some(u)
  {
    if users[0] != u {
      assert users[0].email != u.email by {
        var k :| 0 <= k < |users| && users[k] == u;
      }
      assert UniqueUsers(users[1..]) by {
        forall i, j | 0 <= i < j < |users[1..]|
          ensures users[1..][i].email != users[1..][j].email && users[1..][i].id != users[1..][j].id
        {
          assert users[1..][i] == users[i + 1] && users[1..][j] == users[j + 1];
        }
      }
      FindByEmailUnique(users[1..], u);
    }
  }

  /** The position of the complaint whose internal `id` is `id`, if there is one. */
  function IndexOf(cs: seq<Complaint>, id: string): (r: Option<nat>)
    ensures r.Some? ==> r.value < |cs| && cs[r.value].id == id
    ensures r.None? <==> forall i :: 0 <= i < |cs| ==> cs[i].id != id
  {
    if cs == [] then None
    else if cs[0].id == id then Some(0)
    else match IndexOf(cs[1..], id)
      case None => None
      case Some(i) => Some(i + 1)
  }

  /** The database's unique constraints on the user table. */
  ghost predicate UniqueUsers(users: seq<User>) {
    forall i, j :: 0 <= i < j < |users| ==> users[i].email != users[j].email && users[i].id != users[j].id
  }

  /** The database's unique constraints on the complaint table. */
  ghost predicate UniqueComplaints(cs: seq<Complaint>) {
    forall i, j :: 0 <= i < j < |cs| ==> cs[i].id != cs[j].id && cs[i].complaintId != cs[j].complaintId
  }
}

=== FILE: session.dfy ===
/**
 * Reading the session cookie. The token codec itself (signing and verifying an HS256 JWT
 * with the `jose` library) is not part of this model: `decrypt` is a parameter standing for
 * lib/auth.ts's `decrypt`, which yields the claims of a token whose signature and expiry
 * check out and `None` for every other string.
 */
module Session {
  import opened Wrappers
  import opened Records

  /**
   * `cookie ? await decrypt(cookie) : null`: no cookie and an empty cookie give no session;
   * otherwise the session is whatever `decrypt` makes of the cookie's value.
   */
  function SessionOf(cookie: Option<string>, decrypt: string -> Option<SessionPayload>): (s: Option<SessionPayload>)
    ensures cookie.None? || cookie.value == [] ==> s.None?
    ensures s.Some? ==> cookie.Some? && decrypt(cookie.value) == s
    ensures cookie.Some? && cookie.value != [] ==> s == decrypt(cookie.value)
  {
    match cookie
    case Some(token) => if token == "" then None else decrypt(token)
    case None => None
  }

  /** `session && session.role === "ADMIN"`: the test both administrator-only handlers apply. */
  predicate IsAdminSession(session: Option<SessionPayload>) {
    session.Some? && session.value.role == Admin
  }

  /** A cookie that does not decrypt is the same as no cookie at all. */
  lemma UndecryptableIsAbsent(token: string, decrypt: string -> Option<SessionPayload>)
    requires decrypt(token).None?
    ensures SessionOf(Some(token), decrypt) == SessionOf(None, decrypt)
  {
  }
}

=== FILE: sla.dfy ===
/**
 * `getSLAStatus`: how many whole days a complaint has been open, and whether that is past the
 * three-day service-level target. Times are integer milliseconds since the epoch and the
 * current time, read from the clock in the application, is a parameter here.
 */
module Sla {

  /** `1000 * 60 * 60 * 24`. */
  const MsPerDay: int := 1000 * 60 * 60 * 24

  /** Age in whole days at which a complaint is in breach. */
  const BreachDays: int := 3

  datatype SlaStatus = SlaStatus(diffInDays: int, isBreached: bool)

  /**
   * `Math.floor((now - created) / MsPerDay)`: the age in days rounded toward minus infinity,
   * so a creation time in the future gives a negative age. The status of the complaint plays
   * no part: breach here is about age alone.
   */
  function GetSlaStatus(createdAt: int, now: int): (r: SlaStatus)
    ensures r.diffInDays * MsPerDay <= now - createdAt < (r.diffInDays + 1) * MsPerDay
    ensures r.isBreached <==> r.diffInDays >= BreachDays
  {
    var diffInDays := (now - createdAt) / MsPerDay;
    SlaStatus(diffInDays, diffInDays >= BreachDays)
  }

  /** A complaint is in breach exactly when at least three full days of milliseconds have passed. */
  lemma BreachedIffThreeDaysElapsed(createdAt: int, now: int)
    ensures GetSlaStatus(createdAt, now).isBreached <==> now - createdAt >= BreachDays * MsPerDay
  {
    var d := GetSlaStatus(createdAt, now).diffInDays;
    if d >= BreachDays {
      assert d * MsPerDay >= BreachDays * MsPerDay;
    } else {
      assert (d + 1) * MsPerDay <= BreachDays * MsPerDay;
    }
  }

  /** Exactly three days after creation the complaint is three days old and in breach. */
  lemma BoundaryThreeDays(createdAt: int)
    ensures GetSlaStatus(createdAt, createdAt + 3 * MsPerDay) == SlaStatus(3, true)
  {
  }

  /** One millisecond earlier it is two days old and not in breach. */
  lemma BoundaryJustUnderThreeDays(createdAt: int)
    ensures GetSlaStatus(createdAt, createdAt + 3 * MsPerDay - 1) == SlaStatus(2, false)
  {
  }

  /** Age never decreases as time passes, so a breach, once reached, persists. */
  lemma AgeMonotone(createdAt: int, now: int, later: int)
    requires now <= later
    ensures GetSlaStatus(createdAt, now).diffInDays <= GetSlaStatus(createdAt, later).diffInDays
    ensures GetSlaStatus(createdAt, now).isBreached ==> GetSlaStatus(createdAt, later).isBreached
  {
  }

  /** A creation time in the future gives a negative age and no breach. */
  lemma FutureCreationNotBreached(createdAt: int, now: int)
    requires now < createdAt
    ensures GetSlaStatus(createdAt, now).diffInDays < 0
    ensures !GetSlaStatus(createdAt, now).isBreached
  {
  }
}

=== FILE: text.dfy ===
/**
 * The JavaScript string primitives the core relies on: `String.prototype.startsWith`,
 * the white-space class `\s` of regular expressions (also what `parseInt` skips),
 * and `parseInt` itself, with and without an explicit radix of 10.
 */
module Text {
  import opened Wrappers

  /** JavaScript falsiness of an optional string field: missing (`undefined`/`null`) or empty. */
  predicate Falsy(v: Option<string>) {
    v.None? || v.value == ""
  }

  /** `s.startsWith(prefix)`. */
  predicate StartsWith(s: string, prefix: string) {
    |prefix| <= |s| && s[..|prefix|] == prefix
  }

  /**
   * The characters `\s` matches (ECMAScript WhiteSpace and LineTerminator): tab, line feed,
   * vertical tab, form feed, carriage return, space, no-break space, the Unicode space
   * separators, line and paragraph separators and the byte-order mark.
   */
  predicate IsSpace(c: char) {
    || c == '\t' || c == '\n' || c == '\U{0B}' || c == '\U{0C}' || c == '\r'
    || c == ' ' || c == '\U{A0}' || c == '\U{1680}'
    || ('\U{2000}' <= c <= '\U{200A}')
    || c == '\U{2028}' || c == '\U{2029}' || c == '\U{202F}' || c == '\U{205F}'
    || c == '\U{3000}' || c == '\U{FEFF}'
  }

  predicate NoSpace(s: string) {
    forall i :: 0 <= i < |s| ==> !IsSpace(s[i])
  }

  /** Drops the leading run of white space. */
  function TrimStart(s: string): (r: string)
    ensures |r| <= |s| && r == s[|s| - |r|..]
    ensures r == [] || !IsSpace(r[0])
    ensures forall i :: 0 <= i < |s| - |r| ==> IsSpace(s[i])
  {
    if s != [] && IsSpace(s[0]) then TrimStart(s[1..]) else s
  }

  /** The value of a digit in bases up to 36, or 36 for a character that is no digit. */
  function DigitValue(c: char): (v: nat)
    ensures v <= 36
  {
    if '0' <= c <= '9' then c as nat - '0' as nat
    else if 'a' <= c <= 'z' then c as nat - 'a' as nat + 10
    else if 'A' <= c <= 'Z' then c as nat - 'A' as nat + 10
    else 36
  }

  predicate IsDigit(c: char, radix: nat) {
    DigitValue(c) < radix
  }

  /** The longest prefix of `s` made of digits in base `radix`. */
  function DigitPrefix(s: string, radix: nat): (z: string)
    ensures |z| <= |s| && z == s[..|z|]
    ensures forall i :: 0 <= i < |z| ==> IsDigit(z[i], radix)
    ensures |z| < |s| ==> !IsDigit(s[|z|], radix)
  {
    if s != [] && IsDigit(s[0], radix) then [s[0]] + DigitPrefix(s[1..], radix) else []
  }

  /** The number a string of digits denotes, most significant digit first. */
  function DigitsValue(z: string, radix: nat): nat {
    if z == [] then 0
    else DigitsValue(z[..|z| - 1], radix) * radix + DigitValue(z[|z| - 1])
  }

  /** The longest run of digits at the start of `u`, read in base `radix`; `None` when it is empty. */
  function ParseDigits(u: string, radix: nat): (r: Option<nat>)
    ensures r.None? <==> u == [] || !IsDigit(u[0], radix)
  {
    var z := DigitPrefix(u, radix);
    if z == [] then None else Some(DigitsValue(z, radix))
  }

  /** After the sign: a `0x`/`0X` prefix switches to base 16, but only without an explicit radix. */
  function ParseUnsigned(u: string, autoRadix: bool): (r: Option<nat>)
    ensures !autoRadix ==> r == ParseDigits(u, 10)
    ensures u == [] || u[0] != '0' ==> r == ParseDigits(u, 10)
  {
    if autoRadix && |u| >= 2 && u[0] == '0' && (u[1] == 'x' || u[1] == 'X') then ParseDigits(u[2..], 16)
    else ParseDigits(u, 10)
  }

  /** One optional sign, then the digits. */
  function ParseSigned(t: string, autoRadix: bool): (r: Option<int>)
    ensures r.Some? && r.value < 0 ==> t != [] && t[0] == '-'
    ensures r.Some? ==> t != [] && (t[0] == '-' || t[0] == '+' || IsDigit(t[0], 10))
  {
    if t != [] && t[0] == '-' then
      match ParseUnsigned(t[1..], autoRadix)
      case None => None
      case Some(m) => Some(-(m as int))
    else if t != [] && t[0] == '+' then
      match ParseUnsigned(t[1..], autoRadix)
      case None => None
      case Some(m) => Some(m)
    else
      match ParseUnsigned(t, autoRadix)
      case None => None
      case Some(m) => Some(m)
  }

  /**
   * `parseInt(s)` when `autoRadix` holds, `parseInt(s, 10)` otherwise: skip leading white space,
   * take one optional sign, and (only without an explicit radix) a `0x`/`0X` prefix that
   * switches to base 16; then read the longest run of digits. `None` stands for `NaN`,
   * the result when that run is empty. Whatever follows the run is ignored.
   */
  function ParseInt(s: string, autoRadix: bool): (r: Option<int>)
    ensures r.Some? ==> TrimStart(s) != []
    ensures r.Some? && r.value < 0 ==> TrimStart(s)[0] == '-'
  {
    ParseSigned(TrimStart(s), autoRadix)
  }

  /** Leading white space makes no difference to the number read. */
  lemma ParseIntSkipsSpace(s: string, autoRadix: bool)
    requires s != [] && IsSpace(s[0])
    ensures ParseInt(s, autoRadix) == ParseInt(s[1..], autoRadix)
  {
  }

  function DigitChar(d: nat): (c: char)
    requires d < 10
    ensures IsDigit(c, 10) && DigitValue(c) == d
  {
    ('0' as nat + d) as char
  }

  /** The decimal numeral of `n`, without leading zeros. */
  function Digits(n: nat): (z: string)
    ensures z != [] && forall i :: 0 <= i < |z| ==> IsDigit(z[i], 10)
  {
    if n < 10 then [DigitChar(n)] else Digits(n / 10) + [DigitChar(n % 10)]
  }

  /** `String(n)` for an integer `n`. */
  function DecimalString(n: int): string {
    if n < 0 then "-" + Digits(-n) else Digits(n)
  }

  lemma {:induction false} DigitsValueOfDigits(n: nat)
    ensures DigitsValue(Digits(n), 10) == n
  {
    var z := Digits(n);
    if n >= 10 {
      DigitsValueOfDigits(n / 10);
      assert z[..|z| - 1] == Digits(n / 10);
    }
  }

  lemma {:induction false} DigitPrefixOfDigits(z: string, radix: nat)
    requires forall i :: 0 <= i < |z| ==> IsDigit(z[i], radix)
    ensures DigitPrefix(z, radix) == z
  {
    if z != [] {
      DigitPrefixOfDigits(z[1..], radix);
    }
  }

  /** The numeral of a natural number reads back as that number, in base 10. */
  lemma ParseDigitsOfDigits(n: nat)
    ensures ParseDigits(Digits(n), 10) == Some(n)
  {
    DigitPrefixOfDigits(Digits(n), 10);
    DigitsValueOfDigits(n);
  }

  /** A numeral never carries a hexadecimal prefix, so the radix makes no difference. */
  lemma ParseUnsignedOfDigits(n: nat, autoRadix: bool)
    ensures ParseUnsigned(Digits(n), autoRadix) == Some(n)
  {
    var z := Digits(n);
    assert |z| >= 2 ==> IsDigit(z[1], 10);
    ParseDigitsOfDigits(n);
  }

  /** Reading back the decimal numeral of any integer gives the integer, with or without a radix. */
  lemma ParseDecimalString(n: int, autoRadix: bool)
    ensures ParseInt(DecimalString(n), autoRadix) == Some(n)
  {
    var m: nat := if n < 0 then -n else n;
    var z := Digits(m);
    var s := DecimalString(n);
    assert IsDigit(z[0], 10);
    assert !IsSpace(s[0]);
    assert TrimStart(s) == s;
    ParseUnsignedOfDigits(m, autoRadix);
    if n < 0 {
      assert s[1..] == z;
    }
  }

  /** Without a radix a `0x` prefix switches to base 16. */
  lemma ParseIntHexPrefix()
    ensures ParseInt("0x1F", true) == Some(31)
  {
    var s := "0x1F";
    assert TrimStart(s) == s by {
      assert !IsSpace(s[0]);
    }
    var u := s[2..];
    assert u == "1F";
    assert DigitPrefix(u, 16) == u by {
      assert IsDigit(u[0], 16) && IsDigit(u[1], 16);
      DigitPrefixOfDigits(u, 16);
    }
    assert DigitsValue(u, 16) == 31 by {
      assert u[..1] == "1";
      assert DigitsValue("1", 16) == 1 by { assert "1"[..0] == ""; }
    }
  }

  /** With radix 10 the same text stops at the `x` and reads as 0. */
  lemma ParseIntHexPrefixRadixTen()
    ensures ParseInt("0x1F", false) == Some(0)
  {
    var s := "0x1F";
    assert TrimStart(s) == s by {
      assert !IsSpace(s[0]);
    }
    assert DigitPrefix(s[1..], 10) == [] by {
      assert !IsDigit(s[1], 10);
    }
    assert DigitPrefix(s, 10) == "0";
    assert DigitsValue("0", 10) == 0 by { assert "0"[..0] == ""; }
  }
}

=== FILE: upload.dfy ===
/**
 * The image upload endpoint: the file-presence and image-type checks, the stored file name
 * (a caller-supplied UUID, a dash, and the client's name with each run of white space
 * replaced by one underscore) and the public URL. The write to disk is an outcome parameter.
 */
module Upload {
  import opened Wrappers
  import opened Text

  /** A file part of the multipart form. */
  datatype UploadFile = UploadFile(name: string, mimeType: string)

  /** `formData.get("file")` when present: a file part, or a plain text field of that name. */
  datatype FormEntry = FileEntry(upload: UploadFile) | TextEntry(text: string)

  /** The request body: unreadable as a form, or a form with or without a `file` entry. */
  datatype UploadRequest = UnreadableForm | UploadRequest(file: Option<FormEntry>)

  datatype UploadResponse =
    | UploadError(status: int, error: string)
    | Uploaded(status: int, url: string)

  /**
   * The response, and the stored file name the handler tried to write, if it got that far.
   * The bytes go to `path.join(uploadDir, name)`, which resolves any `..` in the name, so
   * this is a location relative to the uploads directory and not always inside it.
   */
  datatype UploadOutcome = UploadOutcome(response: UploadResponse, written: Option<string>)

  const NoFile := UploadError(400, "No file received.")
  const NotAnImage := UploadError(400, "File must be an image.")
  const UploadFailed := UploadError(500, "File upload failed.")
  const UploadsPrefix := "/uploads/"

  /** `name.replace(/\s+/g, "_")`: every maximal run of white space becomes one underscore. */
  function Sanitize(s: string): (r: string)
    ensures |r| <= |s|
    ensures NoSpace(r)
    decreases |s|
  {
    if s == [] then []
    else if IsSpace(s[0]) then "_" + Sanitize(TrimStart(s))
    else [s[0]] + Sanitize(s[1..])
  }

  /** `${uuid}-${sanitised name}`. */
  function UniqueFilename(uuid: string, name: string): (f: string)
    ensures StartsWith(f, uuid + "-")
    ensures f[|uuid| + 1..] == Sanitize(name)
  {
    uuid + "-" + Sanitize(name)
  }

  /** The `file` entry is present as a file part whose type begins with "image/". */
  predicate IsImageFile(request: UploadRequest) {
    request.UploadRequest? && request.file.Some? && request.file.value.FileEntry?
    && StartsWith(request.file.value.upload.mimeType, "image/")
  }

  /**
   * `POST /api/upload`. `uuid` is what `uuidv4()` returns; `saved` says whether reading the
   * file and writing it to disk succeed. A missing entry and an empty text field are both
   * falsy; a non-empty text field has no `type`, so the image check throws and the handler
   * answers 500.
   */
  function HandleUpload(request: UploadRequest, uuid: string, saved: bool): (o: UploadOutcome)
    ensures request.UnreadableForm? ==> o == UploadOutcome(UploadFailed, None)
    ensures request.UploadRequest? && (request.file.None? || request.file.value == TextEntry("")) ==>
      o == UploadOutcome(NoFile, None)
    ensures request.UploadRequest? && request.file.Some? && request.file.value.TextEntry? && request.file.value.text != "" ==>
      o == UploadOutcome(UploadFailed, None)
    ensures (request.UploadRequest? && request.file.Some? && request.file.value.FileEntry? &&
             !StartsWith(request.file.value.upload.mimeType, "image/")) ==>
      o == UploadOutcome(NotAnImage, None)
    ensures o.written.Some? <==> IsImageFile(request)
    ensures o.response.Uploaded? <==> IsImageFile(request) && saved
    ensures o.response.Uploaded? ==>
      o.response.status == 201 && o.written.Some? && o.response.url == UploadsPrefix + o.written.value
    ensures IsImageFile(request) && !saved ==> o.response == UploadFailed
    ensures o.written.Some? ==> o.written.value == UniqueFilename(uuid, request.file.value.upload.name)
    ensures o.response.UploadError? && o.response.status == 400 ==> o.written.None?
  {
    match request
    case UnreadableForm => UploadOutcome(UploadFailed, None)
    case UploadRequest(file) =>
      if file.None? || file.value == TextEntry("") then UploadOutcome(NoFile, None)
      else if file.value.TextEntry? then UploadOutcome(UploadFailed, None)
      else if !StartsWith(file.value.upload.mimeType, "image/") then UploadOutcome(NotAnImage, None)
      else
        var filename := UniqueFilename(uuid, file.value.upload.name);
        if saved then UploadOutcome(Uploaded(201, UploadsPrefix + filename), Some(filename))
        else UploadOutcome(UploadFailed, Some(filename))
  }

  /** A name without white space is stored as it is, `/` and `..` included. */
  lemma {:induction false} SanitizeNoSpace(s: string)
    requires NoSpace(s)
    ensures Sanitize(s) == s
  {
    if s != [] {
      SanitizeNoSpace(s[1..]);
    }
  }

  /**
   * A client name that climbs out of the directory reaches the stored name intact; joined to
   * the uploads directory, it names a file outside it.
   */
  lemma TraversalNameKept(uuid: string, name: string)
    requires name == "x/../../../app/page.tsx"
    ensures UniqueFilename(uuid, name) == uuid + "-" + name
  {
    assert NoSpace(name) by {
      forall i | 0 <= i < |name| ensures !IsSpace(name[i]) {
        assert '!' <= name[i] <= '~';
      }
    }
    SanitizeNoSpace(name);
  }

  /** Sanitising a sanitised name changes nothing. */
  lemma SanitizeIdempotent(s: string)
    ensures Sanitize(Sanitize(s)) == Sanitize(s)
  {
    SanitizeNoSpace(Sanitize(s));
  }

  /** What remains once white space and underscores are dropped. */
  function Visible(s: string): (r: string)
    ensures |r| <= |s|
  {
    if s == [] then []
    else if IsSpace(s[0]) || s[0] == '_' then Visible(s[1..])
    else [s[0]] + Visible(s[1..])
  }

  lemma {:induction false} VisibleOfSpaces(s: string)
    ensures Visible(s) == Visible(TrimStart(s))
  {
    if s != [] && IsSpace(s[0]) {
      VisibleOfSpaces(s[1..]);
    }
  }

  /**
   * Every character other than white space and underscores passes through unchanged and in
   * order: only runs of white space are touched.
   */
  lemma {:induction false} SanitizeKeepsVisible(s: string)
    ensures Visible(Sanitize(s)) == Visible(s)
    decreases |s|
  {
    if s != [] {
      if IsSpace(s[0]) {
        var t := TrimStart(s);
        SanitizeKeepsVisible(t);
        VisibleOfSpaces(s);
        assert ("_" + Sanitize(t))[1..] == Sanitize(t);
      } else {
        SanitizeKeepsVisible(s[1..]);
        assert ([s[0]] + Sanitize(s[1..]))[1..] == Sanitize(s[1..]);
      }
    }
  }

  lemma {:induction false} TrimStartRun(run: string, rest: string)
    requires forall i :: 0 <= i < |run| ==> IsSpace(run[i])
    requires rest == [] || !IsSpace(rest[0])
    ensures TrimStart(run + rest) == rest
  {
    if run == [] {
      assert run + rest == rest;
    } else {
      assert (run + rest)[0] == run[0];
      assert (run + rest)[1..] == run[1..] + rest;
      TrimStartRun(run[1..], rest);
    }
  }

  lemma ConcatAssoc<T>(x: seq<T>, y: seq<T>, z: seq<T>)
    ensures x + (y + z) == (x + y) + z
  {
  }

  lemma ConcatTail<T>(a: seq<T>, b: seq<T>)
    requires a != []
    ensures (a + b)[0] == a[0] && (a + b)[1..] == a[1..] + b
  {
  }

  lemma ConcatSplit<T>(a: seq<T>, b: seq<T>, k: nat)
    requires k <= |a|
    ensures a[..k] + (a[k..] + b) == a + b
  {
  }

  /** Leading white space ends inside `a` when `a` ends in something else. */
  lemma TrimStartAppend(a: string, b: string)
    requires a != [] && !IsSpace(a[|a| - 1])
    ensures TrimStart(a + b) == TrimStart(a) + b
  {
    var t := TrimStart(a);
    var k := |a| - |t|;
    ConcatSplit(a, b, k);
    TrimStartRun(a[..k], t + b);
  }

  /**
   * A name cut just after a character other than white space sanitises piece by piece: no
   * run of white space straddles the cut.
   */
  lemma {:induction false} SanitizeSplit(a: string, b: string)
    requires a == [] || !IsSpace(a[|a| - 1])
    ensures Sanitize(a + b) == Sanitize(a) + Sanitize(b)
    decreases |a|
  {
    if a == [] {
      assert a + b == b;
    } else if IsSpace(a[0]) {
      ConcatTail(a, b);
      TrimStartAppend(a, b);
      SanitizeSplit(TrimStart(a), b);
      ConcatAssoc("_", Sanitize(TrimStart(a)), Sanitize(b));
    } else {
      ConcatTail(a, b);
      SanitizeSplit(a[1..], b);
      ConcatAssoc([a[0]], Sanitize(a[1..]), Sanitize(b));
    }
  }

  /** A run of white space, however long, becomes a single underscore. */
  lemma SanitizeRun(run: string, rest: string)
    requires run != [] && forall i :: 0 <= i < |run| ==> IsSpace(run[i])
    requires rest == [] || !IsSpace(rest[0])
    ensures Sanitize(run + rest) == "_" + Sanitize(rest)
  {
    assert (run + rest)[0] == run[0];
    TrimStartRun(run, rest);
  }

  /**
   * Wherever it stands, a maximal run of white space becomes one underscore in its place:
   * what comes before and after it is sanitised on its own.
   */
  lemma SanitizeRunAt(pre: string, run: string, rest: string)
    requires pre == [] || !IsSpace(pre[|pre| - 1])
    requires run != [] && forall i :: 0 <= i < |run| ==> IsSpace(run[i])
    requires rest == [] || !IsSpace(rest[0])
    ensures Sanitize(pre + (run + rest)) == Sanitize(pre) + ("_" + Sanitize(rest))
  {
    SanitizeSplit(pre, run + rest);
    SanitizeRun(run, rest);
  }
}

=== FILE: wrappers.dfy ===
/** Optional values: the model's stand-in for JavaScript's `null`/`undefined`. */
module Wrappers {

  datatype Option<+T> = None | Some(value: T)
}
